=== FILE: README.md ===
# ARC-Speak client core, modelled in Dafny

ARC-Speak is a desktop voice and text chat client. This project models four parts of it.

- **The audio pipeline (`AudioManager`).** This covers:
  - the fixed 48 kHz mono format;
  - resampling;
  - clip-guarded normalisation;
  - the per-block capture decision: voice activity over an RMS threshold, mute gating, speaking-status events and forwarding;
  - the playback FIFO with drop-oldest and drain;
  - the playback callback that fits one chunk to the device block;
  - the start/stop lifecycle of capture, playback and the microphone self-test.
- **The voice session of the main window.** This covers:
  - the previewed, joined and current channel ids;
  - the roster of users in the voice channel;
  - the per-user voice-activity timers;
  - the mute button and input-volume slider;
  - the voice panel's button visibility;
  - the rule for choosing audio devices.

  Socket emits become entries appended to the log `emitted`. The session calls the audio engine's own start/stop methods.
- **The chat message list (`MessageManager`).** This covers its loading flags, its history handlers and its queries.
- **The configuration cache (`ConfigLoader`).** Saving is modelled as taking a snapshot of the map.

Files:

| file | module | what |
|---|---|---|
| `wrappers.dfy` | `Wrappers` | `Option` |
| `audio.dfy` | `Audio` | resample, normalize, capture step, playback fit, FIFO, class `AudioEngine` |
| `mute.dfy` | `MuteLogic` | the mute triple (button, logical mute, slider) and its three handlers |
| `timers.dfy` | `ActivityTimers` | per-user timers, the loop's scheduled timers and queued timeout tasks |
| `session.dfy` | `Session` | class `VoiceSession`: channels, roster, timers, mute, devices |
| `messages.dfy` | `Messages` | timestamp sort, filters, class `MessageList` |
| `config.dfy` | `Config` | class `ConfigStore` |

Points where the code's behaviour is easy to misread:
- **Resample length.** It is `int(len * target / original)`, which truncates rather than rounds.
- **Capture device failure.** When the capture device fails inside its thread, `is_sending_audio` is not reset, so `AudioEngine.StartAudioStream` leaves it set.
- **Timers on leave and channel switch.** Leaving a user, leaving a channel and switching channels do not cancel activity timers.
- **`on_user_voice_activity`.** It marks the card speaking but does not start a timer.
- **Leave helper flag.** `_leave_current_voice_channel_if_any` is only ever called with `called_from_select_new_voice=True`. With `False` on a preview the function raises `UnboundLocalError` after clearing the voice state, because it assigns `current_text_channel_id` without declaring it global; the model covers both values of the flag (see "## Findings").

Four handlers have a bug (see "## Findings"). Each is modelled as written under the source's own name, with a corrected twin beside it:
- `MessageList.HandleOlderMessagesLoaded` and `MessageList.HandleHistoricalMessagesLoaded` sort newest first, as written. Their twins `...OldestFirst` sort oldest first.
- `VoiceSession.ConfirmJoin` does not recompute the logical mute flag, as written. Its twin `ConfirmJoinRecomputingMute` does.
- `VoiceSession.RunTimeoutTask` drops the user's timer entry whatever it holds, as written. Its twin `RunTimeoutTaskIfCurrent` acts only for its own timer.
- `VoiceSession.LeaveCurrentVoiceChannelIfAny` raises on a plain leave of a preview, as written. Its twin `LeaveCurrentVoiceChannelFallingBack` selects a text channel instead. With the flag `True`, the only value the source passes, the two agree.

`VoiceSession` has two invariants:
- `WellFormed` is the structural one, which every handler keeps.
- `Valid` adds that the mute flags agree and that each user has one live timer.

The two as-written session handlers promise only `WellFormed`, because they break exactly the part `Valid` adds.

## Model

| member | source | states |
|---|---|---|
| Audio.Resample | src/audio_manager.py:81-95 | equal rates return the input unchanged; otherwise the output length is the floor of `len*target/original` (stated over the reals), and the sample values are those of the resampling filter |
| Audio.Normalize | src/audio_manager.py:98-111 | the output always has the input's length; a factor <= 0 gives all zeros; a factor > 0 gives every sample abs <= 1; without clipping the output is exactly `chunk*factor`; when the scaled peak exceeds 1, the output is the scaled chunk divided by that peak, and some sample lands at abs 1 |
| Audio.ClipGuard | src/audio_manager.py:106-109 | dividing a block by its peak keeps every sample within [-1, 1] and puts one sample at abs 1 |
| Audio.FullBlockAtStandardRate | src/audio_manager.py:231-232 | a block of `frames` samples is estimated at exactly 48000 Hz, so it is never resampled |
| Audio.CaptureStep | src/audio_manager.py:197-251 | speaking iff the block is non-empty, RMS > 0.02 and not logically muted (an empty block's RMS is NaN, which is never above the threshold); a status event exactly when speaking differs from the last status sent, carrying the new value (a muted block yields a final False); nothing is forwarded when muted, silent or empty; a block near 48 kHz, or of exactly `frames` samples, is forwarded unresampled |
| Audio.AudioEngine.CaptureCallback | src/audio_manager.py:197-251 | its outputs and the new last-sent status are those of `CaptureStep` |
| Audio.FitBlock | src/audio_manager.py:299-314 | always `frames` samples: an equal chunk is copied, a longer one truncated, a shorter one zero-padded; no chunk gives silence |
| Audio.AudioEngine.PlaybackCallback | src/audio_manager.py:292-317 | pops at most the head of the queue and writes `FitBlock` of it (or silence) into the output array |
| Audio.Enqueue | src/audio_manager.py:445-461 | the chunk goes to the tail; below capacity the earlier queue is kept whole; at capacity the oldest is dropped; a bounded queue never exceeds its capacity |
| Audio.EnqueueAllKeepsNewest | src/audio_manager.py:445-461 | after any sequence of enqueues into a queue of capacity N, the queue holds the newest min(N, total) chunks in arrival order |
| Audio.OverflowEvictsOldest | src/audio_manager.py:453-458 | N+1 chunks into capacity N leave all but the first |
| Audio.AudioEngine.constructor | src/audio_manager.py:34-65 | nothing selected, nothing running, unmuted, empty unbounded queue |
| Audio.AudioEngine.AddChunkToPlaybackBuffer | src/audio_manager.py:445-461 | the queue becomes `Enqueue` of the old queue |
| Audio.AudioEngine.StartPlaybackStream | src/audio_manager.py:319-354 | a no-op when already active; otherwise active exactly when the stream starts, and a failed start leaves the created stream assigned |
| Audio.AudioEngine.StopPlaybackStreamIfRunning | src/audio_manager.py:356-374 | a running stream is released and the queue drained; the active flag is cleared unless stop/close raises; otherwise nothing changes |
| Audio.AudioEngine.StartAudioStream | src/audio_manager.py:376-393 | a no-op when already sending; otherwise sending with the stop signal cleared |
| Audio.AudioEngine.StopAudioStreamIfRunning | src/audio_manager.py:395-407 | afterwards never sending; a running capture also has its last-sent status reset to False, whether the bounded wait timed out or not |
| Audio.AudioEngine.StartMicTest | src/audio_manager.py:409-424 | a no-op when testing; otherwise testing with the meter at 0 |
| Audio.AudioEngine.StopMicTest | src/audio_manager.py:426-438 | afterwards not testing; a running test has its meter reset to 0 |
| Audio.AudioEngine.MicTestCallback | src/audio_manager.py:148-155 | loops input to output; meter = min(1, 10 * norm) |
| Audio.AudioEngine.GetMicTestVolume | src/audio_manager.py:440-443 | the meter, always within [0, 1] |
| MuteLogic.Recompute | src/main.py:1449-1466 | logical mute := button or slider == 0; the button and slider are untouched |
| MuteLogic.ToggleMute | src/main.py:1411-1431 | the button flips; unmuting at volume 0 restores 80; afterwards logical mute equals the button |
| MuteLogic.VolumeChanged | src/main.py:1433-1447 | the slider takes `v`; 0 forces the button muted; otherwise logical mute equals the button |
| MuteLogic.JoinResetAsWritten | src/main.py:752-756 | a slider above 0 resets the button to unmuted; a slider at 0 leaves the button alone; logical mute and the slider are left unchanged |
| MuteLogic.JoinResetAsWrittenDesyncs | src/main.py:752-756 | from a consistent state (button muted, slider 50), the as-written reset leaves the button and logical mute disagreeing |
| MuteLogic.JoinReset | src/main.py:752-756 | with recomputation: a slider above 0 leaves the microphone unmuted in both senses, and the consistency invariants are kept |
| MuteLogic.LogicalIsButton | src/main.py:1449-1466 | under the invariants, logical mute equals the button |
| ActivityTimers.AtMostOneLive | src/main.py:337-352 | with every scheduled timer recorded for its user, a user has at most one live timer, namely the recorded one |
| ActivityTimers.Start | src/main.py:337-352 | the user's recorded timer becomes a fresh handle that is scheduled; other users' entries are unchanged |
| ActivityTimers.StartKeepsValid | src/main.py:340-352 | cancelling before rescheduling keeps the one-live-timer-per-user invariant; the only live timer of the user is the fresh one |
| ActivityTimers.Elapse | src/main.py:347-351 | an elapsed timer stops being live and queues its handler task; the invariant is kept |
| ActivityTimers.RunTaskAsWritten | src/main.py:322-335 | the handler deletes the user's entry whatever handle it holds, keeps every other user's entry and the scheduled timers, dequeues the task, and names the user whose card to clear |
| ActivityTimers.StaleTaskLeavesTwoLiveTimers | src/main.py:322-352 | activity, elapse, new activity, then the stale task, then activity leaves two live timers for the user |
| ActivityTimers.RunTask | src/main.py:322-335 | corrected handler: when its handle is still the recorded one, it deletes exactly that user's entry and names the user; otherwise the entries are untouched and the task is stale; the invariant is kept |
| ActivityTimers.StaleTaskIgnored | src/main.py:322-352 | on the same event order the corrected handler is a no-op and one timer stays live |
| Session.Visibility | src/main.py:423-447 | join and leave are never both shown; the settings follow the leave button; with nothing previewed, nothing is shown |
| Session.VisibilityFollowsMembership | src/main.py:423-447 | under the membership invariant, leave and settings are shown iff joined, and join iff previewing without being joined |
| Session.RosterOfKeys | src/main.py:187-200 | a snapshot's roster has exactly the snapshot's user ids as keys |
| Session.RosterOfEntries | src/main.py:187-200 | each card is keyed by its id, unmuted and not speaking, and named by the last snapshot entry for that id |
| Session.InboundChunk | src/main.py:291-316 | a 48 kHz chunk is normalised at volume 1; a non-positive rate or an empty result is the caught error; the output is non-empty with every abs sample <= 1, and a resampled output has the floor length |
| Session.FirstDefault | src/main.py:1261-1262 | finds the first device whose name starts with "(Default)", and finds one iff one exists |
| Session.ChooseDevice | src/main.py:1248-1303 | picks the saved id if some device has it, else the first "(Default)" device, else the first device, else none (exactly when the list is empty) |
| Session.VoiceSession.constructor | src/main.py:30-49 | nothing previewed or joined, empty roster and timers, slider at 100 |
| Session.VoiceSession.LeaveCurrentVoiceChannelIfAny | src/main.py:671-733 | as written: never joined afterwards, with no current channel and an empty roster; only a joined channel is left on the server and has its streams stopped (capture off; a running output stream closed, its queue drained, and its active flag cleared unless closing raises; otherwise playback untouched); a plain leave also clears the preview; it raises exactly on a plain leave of a preview, and the text channel never changes |
| Session.VoiceSession.LeaveCurrentVoiceChannelFallingBack | src/main.py:716-730 | corrected: the same leave, after which a plain leave of a preview always has a text channel when one exists: the current one if truthy, otherwise the first |
| Session.PreviewLeaveWitness | src/main.py:716-730 | leaving a preview of channel 5 with no text channel and text channel 7 available: as written it raises and leaves no text channel; corrected, channel 7 is selected |
| Session.VoiceSession.SelectVoiceChannel | src/main.py:595-669 | re-selecting the joined or the previewed channel changes nothing; any other channel leaves (emitting leave and stopping both streams only if joined, as `LeaveCurrentVoiceChannelIfAny` does) and previews it with no current voice or text channel and an empty roster; membership is kept |
| Session.VoiceSession.StopStreams | src/main.py:694-697 | capture is stopped with its last-sent status reset; a running output stream is closed and drained, with its active flag cleared unless closing raises; a stream not running is left as it was |
| Session.VoiceSession.StartStreams | src/main.py:780-788 | capture runs afterwards with a selected input device (freshly started with the stop signal cleared when it was not running) and is untouched without one; playback is always requested: an active stream is kept, otherwise playback is active exactly when the start succeeds and a stream is assigned unless creating it failed |
| Session.VoiceSession.EnterPreviewed | src/main.py:744-799 | joined on the previewed channel; capture runs when an input device is selected; playback follows the same start rule as `StartStreams`; capture is untouched without an input device; join and the microphone status `not logically muted` are emitted when connected |
| Session.VoiceSession.ConfirmJoin | src/main.py:735-806 | as written: a no-op without a preview; otherwise joined on the previewed channel, with the mute triple `JoinResetAsWritten` of the old one; a user muted by the button at a slider above 0 ends with the button unmuted, logical mute still set, and an initial status `is_unmuted = False`; capture and playback as in `EnterPreviewed`; roster, text channel, timers, connection and own id are kept; the structural invariant is kept |
| Session.VoiceSession.ConfirmJoinRecomputingMute | src/main.py:735-806 | corrected: as `ConfirmJoin`, but the mute triple becomes `JoinReset` of the old one, so above a zero slider the microphone is unmuted in both senses; the same stream and frame clauses; the full invariant is kept |
| Session.VoiceSession.LeaveVoiceClick | src/main.py:808-840 | a no-op unless joined; otherwise emits leave, stops capture, closes and drains a running output stream (its active flag cleared unless closing raises), and returns to previewing the same channel with the roster kept |
| Session.VoiceSession.OnVoiceChannelUsers | src/main.py:187-200 | the roster becomes `RosterOf(users)` exactly when the snapshot's channel equals the previewed one (both absent counts as equal) |
| Session.VoiceSession.OnUserJoinedVoice | src/main.py:202-214 | adds only a truthy id with a non-empty name that is not yet listed |
| Session.VoiceSession.OnUserLeftVoice | src/main.py:216-224 | removes only that user, and only for the previewed channel |
| Session.VoiceSession.OnUserSpeaking | src/main.py:226-234 | for the joined channel, sets `mic_muted = not speaking` for a listed user |
| Session.VoiceSession.OnUserMicStatusUpdated | src/main.py:236-251 | for the previewed channel, sets `mic_muted = not is_unmuted` for a listed user; a missing status is ignored |
| Session.VoiceSession.OnUserVoiceActivity | src/main.py:253-264 | an active event marks a listed user's card speaking; no timer starts |
| Session.VoiceSession.OnVoiceDataStreamChunk | src/main.py:266-319 | ignored unless joined, not from self and from a listed user; a non-empty chunk marks the sender speaking, leaves exactly one fresh live timer for the sender, and queues `InboundChunk` unless it failed |
| Session.VoiceSession.LocalSpeakingStatusChanged | src/main.py:355-374 | the user's own card follows the status; starting to speak restarts the user's timer |
| Session.VoiceSession.TimerElapses | src/main.py:347-351 | the loop's timer elapses and queues its handler |
| Session.VoiceSession.RunTimeoutTask | src/main.py:322-335 | as written: the timers become `RunTaskAsWritten` of the old ones, so the user's entry is dropped whatever it holds, and a listed user's card stops speaking even when the task is stale; the structural invariant is kept |
| Session.VoiceSession.RunTimeoutTaskIfCurrent | src/main.py:322-335 | corrected: a current task drops the entry and clears a listed user's card; a stale one changes neither; the full invariant is kept |
| Session.VoiceSession.SendMuteStatus | src/main.py:1468-1486 | emits `not logically muted` only while joined and connected |
| Session.VoiceSession.HandleMuteMic | src/main.py:1411-1431 | the mute triple becomes `ToggleMute` of the old one; logical mute equals the flipped button; the status is sent while joined |
| Session.VoiceSession.HandleInputVolumeChange | src/main.py:1433-1447 | the mute triple becomes `VolumeChanged`; the status is sent while joined |
| Session.VoiceSession.PopulateAudioDevices | src/main.py:1206-1303 | both selections follow `ChooseDevice` |
| Messages.SortOrdered | src/message_manager.py:170-173 | the timestamp sort orders the batch, in either direction |
| Messages.SortByTimestamp | src/message_manager.py:172 | the sort is a permutation of the batch |
| Messages.SortedHeadIsExtreme | src/message_manager.py:170-173 | the head of the sorted batch is a batch message whose timestamp is extreme: newest first gives the latest, oldest first the earliest |
| Messages.OldestIdAfterBatchAsWritten | src/message_manager.py:170-173 | as written, the "oldest loaded" id is that of a message no other message of the batch postdates |
| Messages.OldestIdAsWrittenIsNewest | src/message_manager.py:170-173 | a two-message batch records the newer message's id as the oldest |
| Messages.OldestIdAfterBatch | src/message_manager.py:44-50 | corrected: the recorded id is that of a message no other message of the batch predates |
| Messages.OldestIdIsOldest | src/message_manager.py:44-50 | on the same batch, the corrected rule records the older id |
| Messages.KeepMembers | src/message_manager.py:251-258 | a filter keeps exactly the list's messages that satisfy its predicate |
| Messages.KeepConcat | src/message_manager.py:251-258 | a filter preserves list order |
| Messages.SearchResultMembers | src/message_manager.py:243-258 | a blank query gives nothing; otherwise the result holds exactly the messages whose lower-cased content or username contains the lower-cased query |
| Messages.Recent | src/message_manager.py:265-267 | `s[-count:]`: the last `count` for 0 < count <= len, everything for count 0 or count > len, and the list without its first `-count` for negative count |
| Messages.MessageList.Clear | src/message_manager.py:33-38 | empty list, no oldest id, both flags False |
| Messages.MessageList.AddMessage | src/message_manager.py:40-42 | appends; earlier messages unchanged |
| Messages.MessageList.PrependMessages | src/message_manager.py:44-50 | the list becomes `batch ++ old`; the oldest id becomes the head's id for a non-empty batch, else is unchanged |
| Messages.MessageList.SetInitialMessages | src/message_manager.py:52-60 | replaces the list and the "more" flag; the oldest id is the head's id or None |
| Messages.MessageList.RequestOlderMessages | src/message_manager.py:148-163 | a no-op while loading or without more; otherwise sets loading and requests 20 messages before the oldest id |
| Messages.MessageList.HandleOlderMessagesLoaded | src/message_manager.py:165-181 | as written: puts the batch, sorted newest first, in front of the list; a non-empty batch sets the oldest id to `OldestIdAfterBatchAsWritten`, the id of its newest message; copies "more"; always clears loading |
| Messages.MessageList.HandleOlderMessagesLoadedOldestFirst | src/message_manager.py:165-181 | corrected: the batch is sorted oldest first, and the oldest id becomes `OldestIdAfterBatch`, the id of its earliest message |
| Messages.MessageList.HandleHistoricalMessagesLoaded | src/message_manager.py:183-197 | as written: replaces the list with the batch sorted newest first (proved ordered that way), with the oldest id `OldestIdAfterBatchAsWritten`; copies "more" |
| Messages.MessageList.HandleHistoricalMessagesLoadedOldestFirst | src/message_manager.py:183-197 | corrected: replaces the list with the batch sorted oldest first, with the oldest id `OldestIdAfterBatch` |
| Messages.MessageList.HandleNewMessage | src/message_manager.py:199-213 | appends unless the current-channel lookup reports another channel |
| Messages.MessageList.MessageCount | src/message_manager.py:220-222 | the number of messages |
| Messages.MessageList.LatestMessage | src/message_manager.py:224-228 | the last message, None iff the list is empty |
| Messages.MessageList.OldestMessage | src/message_manager.py:230-234 | the first message, None iff the list is empty |
| Messages.MessageList.SearchMessages | src/message_manager.py:243-258 | the loop's result is `SearchResult` |
| Messages.MessageList.MessagesByUser | src/message_manager.py:260-263 | the list filtered by case-insensitive username equality (`Keep` with `ByUser`), so the matches keep list order and multiplicity, as `KeepConcat` states; a message is in the result iff it is in the list with that username |
| Messages.MessageList.RecentMessages | src/message_manager.py:265-267 | the list's `Recent` slice: the last `count` messages with Python's negative-slice rules, empty for an empty list |
| Config.Lookup | src/config_loader.py:55-57 | the stored value when the key is present, else the default |
| Config.SetThenGet | src/config_loader.py:59-61 | a key just set reads back its value; other keys read as before |
| Config.DeleteThenGet | src/config_loader.py:63-66 | a deleted key reads as the default; other keys read as before |
| Config.WithLogin | src/config_loader.py:72-76 | the three login keys are set; every other key is kept |
| Config.WithoutLogin | src/config_loader.py:78-82 | exactly the three login keys are removed; every other key is kept |
| Config.ResetUndoesUpdate | src/config_loader.py:72-82 | resetting after an update equals resetting the original store |
| Config.ConfigStore.Get | src/config_loader.py:55-57 | the stored value of the key, or the default when it is absent |
| Config.ConfigStore.Set | src/config_loader.py:59-61 | the store becomes `old[k := v]` |
| Config.ConfigStore.Delete | src/config_loader.py:63-66 | removes the key; an absent key changes nothing |
| Config.ConfigStore.Clear | src/config_loader.py:68-70 | the store is empty |
| Config.ConfigStore.SaveConfig | src/config_loader.py:39-53 | given data replaces the cache first; a successful write makes the snapshot the cache |
| Config.ConfigStore.UpdateLoginInfo | src/config_loader.py:72-76 | the store becomes `WithLogin` and is saved |
| Config.ConfigStore.ResetLoginInfo | src/config_loader.py:78-82 | the store becomes `WithoutLogin` and is saved |

## Left out

- **User interface.** Flet controls, rendering, card colours, the topic and status texts, and the dropdown options are not modelled. `ui_manager.py` and `network_manager.py` are not part of this model.
- **Threads, the event loop and time.** These are not modelled:
  - capture and self-test threads appear only as flags;
  - the bounded `join` is always assumed to return;
  - `run_coroutine_threadsafe` is not modelled;
  - a timer elapsing and a task running are discrete events (`TimerElapses`, `RunTimeoutTask`) with no clock;
  - the one-second timeout value is not used.
- **Devices.** Device listing and opening become inputs:
  - the `StreamOutcome` of a playback start;
  - `closeFails` for stopping;
  - the device lists given to `PopulateAudioDevices`.

  These are not modelled:
  - a failure of device listing inside `populate_audio_devices`, which leaves the selections unchanged;
  - a saved id that does not parse as an integer (it is given as `None`);
  - the device-query path of playback start.
- **Float32 numerics.** Samples are `real`. The resampler's values are a `filter` input. RMS and norm are inputs, and float32 rounding is not modelled.
- **Socket plumbing.**
  - An emit that raises is treated like a successful one.
  - `sio_client` being absent is treated like being disconnected.
  - Outgoing audio (`send_audio_data`) and the server-user list are not modelled.
- **Capture forwarding.** The outcome of a capture block is returned rather than scheduled on the page loop.
- **Message rendering.** Timestamp parsing and `format_message_for_display` are not modelled, since they depend on the clock.
- **Text handling.** Lower-casing and `strip()` are ASCII only. Non-ASCII whitespace such as U+0085 and U+00A0 is not treated as blank.
- **Config file I/O.** Reading the file, creating the directory, recovering from a corrupt file and `reload_config` are not modelled. The file is represented by the `saved` snapshot.
- **Missing fields in roster snapshots.** A snapshot entry without `user_id` or `username` raises in the source; such entries are not modelled.
- Audio.Normalize: a positive factor on an empty chunk is excluded by the precondition. In the source, NumPy's `max` raises `ValueError` there. Its one caller with a positive factor, `Session.InboundChunk`, returns `None` before normalising an empty chunk, which models the handler catching the error.
- **Handlers after the as-written bugs.** After `VoiceSession.ConfirmJoin` or `VoiceSession.RunTimeoutTask`, only `WellFormed` holds. The other session handlers are stated under the full `Valid`, so the model does not follow a session past either bug.
- Messages.SortByTimestamp: only ordering and permutation are stated. The stability of Python's sort (equal timestamps keep their order) holds for the insertion, but no lemma states it.
- Audio.AudioEngine.constructor: the queue is unbounded (capacity 0), as in the source. The drop-oldest branch is proved for any positive capacity through `Enqueue`.

## Findings

| source | as written | input that shows it | evidently intended | confidence | as-written member | corrected member |
|---|---|---|---|---|---|---|
| src/message_manager.py:170-173 | a history batch is sorted newest first, then the head's id is recorded as the oldest loaded id and the head is shown as the oldest message (methods `MessageList.HandleOlderMessagesLoaded` and `HandleHistoricalMessagesLoaded`; the corrected twins are `...OldestFirst`) | batch `[{id 1, ts "2024-01-01T10:00"}, {id 2, ts "2024-01-01T10:05"}]` records oldest id 2 | the oldest id is that of the batch's earliest message, as main.py:177 assumes; the batch is sorted oldest first | medium, not executed | Messages.OldestIdAfterBatchAsWritten | Messages.OldestIdAfterBatch |
| src/main.py:752-756 | confirm-join resets `is_mic_muted` but does not recompute `is_logically_muted`, so capture stays gated and the initial status says muted (method `VoiceSession.ConfirmJoin`; the corrected twin is `ConfirmJoinRecomputingMute`) | button muted at slider 50: after joining, the button is unmuted and logical mute is still True | the logical flag is recomputed after the reset | medium, not executed | MuteLogic.JoinResetAsWritten | MuteLogic.JoinReset |
| src/main.py:322-352 | the elapsed timer's task deletes whatever entry the user has, even one created after the timer elapsed (method `VoiceSession.RunTimeoutTask`; the corrected twin is `RunTimeoutTaskIfCurrent`) | chunk from user 7, timer 0 elapses, a chunk from 7 arrives before the task runs, the task runs, another chunk from 7 arrives: two live timers for user 7, and the card was cleared during activity | a task acts only while its own timer is still the user's recorded one | low, not executed | ActivityTimers.RunTaskAsWritten | ActivityTimers.RunTask |
| src/main.py:716-730 | `_leave_current_voice_channel_if_any` assigns `current_text_channel_id` at line 728 without a `global` declaration (line 677), so the name is local and the read at line 720 raises `UnboundLocalError` on a plain leave of a preview, after the voice state was cleared; the path is latent, since both calls pass `True` | previewing channel 5, no text channel, text channels `[7]`: leave with `called_from_select_new_voice=False` raises and no text channel is selected (`Session.PreviewLeaveWitness`) | the module's text channel id is read and, when falsy, set to the first text channel | high, not executed | Session.VoiceSession.LeaveCurrentVoiceChannelIfAny | Session.VoiceSession.LeaveCurrentVoiceChannelFallingBack |

=== FILE: audio.dfy ===
/**
 * The audio pipeline of the voice client (`AudioManager`): the fixed audio
 * format, resampling and clip-guarded normalisation, the per-block capture
 * decision (voice activity detection, mute gating, forwarding), the playback
 * FIFO and its device callback, and the start/stop lifecycle of capture,
 * playback and the microphone self-test.
 *
 * Samples are `real`s. The float32 rounding of the source, the sample values a
 * resampling filter produces and the RMS/norm computations are inputs here.
 */
module Audio {
  import opened Wrappers

  /** The one sample rate every component exchanges (mono audio throughout). */
  const StandardSampleRate: int := 48000
  /** A block whose RMS energy is above this counts as speech. */
  const RmsThreshold: real := 0.02

  type Chunk = seq<real>

  function Abs(x: real): (r: real)
    ensures r >= 0.0 && (r == x || r == -x)
  {
    if x < 0.0 then -x else x
  }

  function Zeros(n: nat): (r: Chunk)
    ensures |r| == n && forall i :: 0 <= i < n ==> r[i] == 0.0
  {
    seq(n, _ => 0.0)
  }

  // ---------------------------------------------------------------------------
  // Resampling
  // ---------------------------------------------------------------------------

  /** `int(a / b)` for non-negative `a` and positive `b`, stated over the reals. */
  lemma FloorOfQuotient(a: nat, b: int)
    requires b > 0
    ensures (a / b) as real <= (a as real) / (b as real) < (a / b) as real + 1.0
  {
    var q, r := a / b, a % b;
    assert a == b * q + r && 0 <= r < b;
    assert (a as real) == (b as real) * (q as real) + (r as real);
    assert (a as real) / (b as real) == (q as real) + (r as real) / (b as real);
  }

  /**
   * Converts `samples` taken at `originalRate` to `targetRate`. Equal rates
   * return the input itself; otherwise the output has `int(len * target /
   * original)` samples, whose values are those of the resampling filter
   * (band-limited when SciPy is present, linear interpolation otherwise),
   * given here as `filter`.
   */
  function Resample(samples: Chunk, originalRate: int, targetRate: int, filter: nat -> real): (r: Chunk)
    requires originalRate > 0 && targetRate > 0
    ensures originalRate == targetRate ==> r == samples
    ensures originalRate != targetRate ==>
      (|r| as real) <= (|samples| as real) * (targetRate as real) / (originalRate as real) < (|r| as real) + 1.0
    ensures originalRate != targetRate ==> forall i :: 0 <= i < |r| ==> r[i] == filter(i)
  {
    if originalRate == targetRate then samples
    else
      var n := |samples| * targetRate / originalRate;
      FloorOfQuotient(|samples| * targetRate, originalRate);
      assert (|samples| * targetRate) as real == (|samples| as real) * (targetRate as real);
      seq(n, i requires 0 <= i < n => filter(i))
  }

  // ---------------------------------------------------------------------------
  // Normalisation (gain plus clip guard)
  // ---------------------------------------------------------------------------

  /** The peak absolute sample of a non-empty block (NumPy's `max(abs(x))`). */
  function MaxAbs(s: Chunk): (m: real)
    requires |s| > 0
    ensures forall i :: 0 <= i < |s| ==> Abs(s[i]) <= m
    ensures exists i :: 0 <= i < |s| && Abs(s[i]) == m
  {
    if |s| == 1 then Abs(s[0])
    else
      var rest := MaxAbs(s[1..]);
      assert forall i :: 1 <= i < |s| ==> s[i] == s[1..][i - 1];
      if Abs(s[0]) >= rest then Abs(s[0]) else rest
  }

  function Scale(s: Chunk, k: real): (r: Chunk)
    ensures |r| == |s| && forall i :: 0 <= i < |s| ==> r[i] == s[i] * k
  {
    seq(|s|, i requires 0 <= i < |s| => s[i] * k)
  }

  function DivideBy(s: Chunk, d: real): (r: Chunk)
    requires d != 0.0
    ensures |r| == |s| && forall i :: 0 <= i < |s| ==> r[i] == s[i] / d
  {
    seq(|s|, i requires 0 <= i < |s| => s[i] / d)
  }

  /** Dividing by a positive bound of `|x|` lands in [-1, 1]. */
  lemma QuotientBounded(x: real, d: real)
    requires d > 0.0 && Abs(x) <= d
    ensures Abs(x / d) <= 1.0
  {
    var q := x / d;
    assert q * d == x;
  }

  /** A sample at the peak lands at full scale. */
  lemma QuotientAtPeak(x: real, d: real)
    requires d > 0.0 && Abs(x) == d
    ensures Abs(x / d) == 1.0
  {
    assert d / d == 1.0;
    if x < 0.0 {
      assert x == -d;
      assert x / d == -(d / d);
    }
  }

  /**
   * The clip guard: dividing a block by its peak, when that exceeds 1, keeps
   * every sample within [-1, 1] and puts the loudest one at full scale.
   */
  lemma ClipGuard(scaled: Chunk)
    requires |scaled| > 0 && MaxAbs(scaled) > 1.0
    ensures var r := DivideBy(scaled, MaxAbs(scaled));
      && (forall i :: 0 <= i < |r| ==> Abs(r[i]) <= 1.0)
      && (exists i :: 0 <= i < |r| && Abs(r[i]) == 1.0)
  {
    var peak := MaxAbs(scaled);
    var r := DivideBy(scaled, peak);
    forall i | 0 <= i < |r|
      ensures Abs(r[i]) <= 1.0
    {
      QuotientBounded(scaled[i], peak);
    }
    var k :| 0 <= k < |scaled| && Abs(scaled[k]) == peak;
    QuotientAtPeak(scaled[k], peak);
    assert Abs(r[k]) == 1.0;
  }

  /**
   * Applies `volumeFactor` to a block and keeps it inside [-1, 1]. A factor
   * of zero or below gives explicit silence of the same length; otherwise the
   * block is scaled and, when its peak then exceeds 1, divided by that peak.
   * NumPy refuses the peak of an empty block, so a positive factor needs a
   * non-empty one.
   */
  function Normalize(chunk: Chunk, volumeFactor: real): (r: Chunk)
    requires volumeFactor <= 0.0 || |chunk| > 0
    ensures |r| == |chunk|
    ensures volumeFactor <= 0.0 ==> forall i :: 0 <= i < |r| ==> r[i] == 0.0
    ensures volumeFactor > 0.0 ==> forall i :: 0 <= i < |r| ==> Abs(r[i]) <= 1.0
    ensures volumeFactor > 0.0 && (forall i :: 0 <= i < |chunk| ==> Abs(chunk[i] * volumeFactor) <= 1.0) ==>
      forall i :: 0 <= i < |r| ==> r[i] == chunk[i] * volumeFactor
    ensures volumeFactor > 0.0 && (exists i :: 0 <= i < |chunk| && Abs(chunk[i] * volumeFactor) > 1.0) ==>
      exists i :: 0 <= i < |r| && Abs(r[i]) == 1.0
    ensures volumeFactor > 0.0 && MaxAbs(Scale(chunk, volumeFactor)) > 1.0 ==>
      forall i :: 0 <= i < |r| ==> r[i] == chunk[i] * volumeFactor / MaxAbs(Scale(chunk, volumeFactor))
  {
    if volumeFactor <= 0.0 then Zeros(|chunk|)
    else
      var scaled := Scale(chunk, volumeFactor);
      var peak := MaxAbs(scaled);
      if peak > 1.0 then
        ClipGuard(scaled);
        DivideBy(scaled, peak)
      else
        scaled
  }

  // ---------------------------------------------------------------------------
  // Capture: voice activity detection, mute gating and forwarding
  // ---------------------------------------------------------------------------

  /** What one captured block leads to. */
  datatype CaptureOutcome = CaptureOutcome(
    speaking: bool,               // the VAD decision for this block
    statusChange: Option<bool>,   // the speaking-status event emitted, if any
    forwarded: Option<Chunk>)     // the block sent to the transport, if any

  /** The capture rate estimated from a block: `len(indata) / (frames / 48000)`. */
  function EstimatedRate(blockLen: nat, frames: nat): real
    requires frames > 0
  {
    (blockLen as real) / ((frames as real) / (StandardSampleRate as real))
  }

  lemma EstimatedRateAtLeastOne(blockLen: nat, frames: nat)
    requires 0 < frames <= StandardSampleRate * blockLen
    ensures EstimatedRate(blockLen, frames) >= 1.0
  {
    var f := (frames as real) / (StandardSampleRate as real);
    assert f > 0.0;
    assert (frames as real) <= (StandardSampleRate as real) * (blockLen as real);
    assert f <= blockLen as real;
  }

  /** A block of exactly `frames` samples is estimated at the standard rate. */
  lemma FullBlockAtStandardRate(blockLen: nat, frames: nat)
    requires frames > 0
    ensures blockLen == frames ==> EstimatedRate(blockLen, frames) == StandardSampleRate as real
  {
    var f := (frames as real) / (StandardSampleRate as real);
    assert f * (StandardSampleRate as real) == frames as real;
  }

  /**
   * The decision taken for one captured block of `frames` frames whose RMS
   * energy is `rms`: the user is speaking when the block is non-empty, the
   * energy is above the threshold and the microphone is not logically muted; a status event is
   * emitted exactly when that differs from the last one sent (so muting while
   * speaking emits a final `false`); the block is forwarded only when
   * speaking and non-empty, resampled to 48 kHz when its estimated rate is
   * more than 100 Hz off.
   */
  function CaptureStep(rms: real, muted: bool, lastSent: bool, block: Chunk, frames: nat, filter: nat -> real): (o: CaptureOutcome)
    requires 0 < frames && (|block| == 0 || frames <= StandardSampleRate * |block|)
    ensures o.speaking <==> |block| > 0 && rms > RmsThreshold && !muted
    ensures o.statusChange.Some? <==> o.speaking != lastSent
    ensures o.statusChange.Some? ==> o.statusChange.value == o.speaking
    ensures muted ==> o.forwarded == None
    ensures o.forwarded.Some? <==> o.speaking && |block| > 0
    ensures o.forwarded.Some? && Abs(EstimatedRate(|block|, frames) - StandardSampleRate as real) <= 100.0 ==>
      o.forwarded.value == block
    ensures o.forwarded.Some? && |block| == frames ==> o.forwarded.value == block
  {
    // The RMS of an empty block is NaN, and NaN is never above the threshold.
    var speaking := |block| > 0 && rms > RmsThreshold && !muted;
    var change := if speaking != lastSent then Some(speaking) else None;
    if muted || !speaking || |block| == 0 then CaptureOutcome(speaking, change, None)
    else
      var rate := EstimatedRate(|block|, frames);
      if Abs(rate - StandardSampleRate as real) > 100.0 then
        EstimatedRateAtLeastOne(|block|, frames);
        FullBlockAtStandardRate(|block|, frames);
        CaptureOutcome(speaking, change, Some(Resample(block, rate.Floor, StandardSampleRate, filter)))
      else
        CaptureOutcome(speaking, change, Some(block))
  }

  // ---------------------------------------------------------------------------
  // Playback: the FIFO and fitting a chunk to one device block
  // ---------------------------------------------------------------------------

  /**
   * The block written to the device for one popped chunk (or none): exactly
   * `frames` samples, the chunk's prefix followed by silence.
   */
  function FitBlock(chunk: Option<Chunk>, frames: nat): (out: Chunk)
    ensures |out| == frames
    ensures forall i :: 0 <= i < frames ==>
      out[i] == (if chunk.Some? && i < |chunk.value| then chunk.value[i] else 0.0)
    ensures chunk.None? ==> out == Zeros(frames)
    ensures chunk.Some? && |chunk.value| >= frames ==> out == chunk.value[..frames]
    ensures chunk.Some? && |chunk.value| < frames ==> out == chunk.value + Zeros(frames - |chunk.value|)
  {
    match chunk
    case None => Zeros(frames)
    case Some(c) =>
      if |c| == frames then c
      else if |c| > frames then c[..frames]
      else c + Zeros(frames - |c|)
  }

  /**
   * Non-blocking put on a queue whose maximum size is `maxSize` (0 means
   * unbounded, as for `asyncio.Queue()`): when full, the oldest chunk is
   * dropped first.
   */
  function Enqueue(q: seq<Chunk>, c: Chunk, maxSize: nat): (r: seq<Chunk>)
    ensures |r| > 0 && r[|r| - 1] == c
    ensures (maxSize == 0 || |q| < maxSize) ==> r[..|r| - 1] == q
    ensures (maxSize > 0 && |q| >= maxSize) ==> r[..|r| - 1] == q[1..]
    ensures maxSize > 0 && |q| <= maxSize ==> |r| <= maxSize
  {
    if maxSize > 0 && |q| >= maxSize then q[1..] + [c] else q + [c]
  }

  /** Enqueues `cs` one after the other. */
  function EnqueueAll(q: seq<Chunk>, cs: seq<Chunk>, maxSize: nat): seq<Chunk>
    decreases |cs|
  {
    if cs == [] then q else EnqueueAll(Enqueue(q, cs[0], maxSize), cs[1..], maxSize)
  }

  /** The newest `n` chunks of `all` (all of them when there are fewer), in arrival order. */
  function Newest(all: seq<Chunk>, n: nat): seq<Chunk> {
    if |all| < n then all else all[|all| - n..]
  }

  /** Dropping the oldest of more than `n` chunks keeps the newest `n`. */
  lemma NewestOfTail(all: seq<Chunk>, n: nat)
    requires |all| > n
    ensures Newest(all[1..], n) == Newest(all, n)
  {
    assert all[1..][|all| - 1 - n..] == all[|all| - n..];
  }

  /** One step of the queue: within the bound, enqueueing extends the arrivals seen so far. */
  lemma EnqueueStep(q: seq<Chunk>, cs: seq<Chunk>, maxSize: nat)
    requires 0 < maxSize && |q| <= maxSize && cs != []
    ensures var q' := Enqueue(q, cs[0], maxSize);
      && |q'| <= maxSize
      && Newest(q' + cs[1..], maxSize) == Newest(q + cs, maxSize)
  {
    var all := q + cs;
    var q' := Enqueue(q, cs[0], maxSize);
    if |q| >= maxSize {
      assert q' + cs[1..] == all[1..];
      NewestOfTail(all, maxSize);
    } else {
      assert q' + cs[1..] == all;
    }
  }

  /**
   * Bounded-latency policy: starting from a queue within its bound, the queue
   * after any run of enqueues holds the newest `maxSize` chunks (or all of
   * them) in arrival order.
   */
  lemma {:induction false} EnqueueAllKeepsNewest(q: seq<Chunk>, cs: seq<Chunk>, maxSize: nat)
    requires 0 < maxSize && |q| <= maxSize
    ensures EnqueueAll(q, cs, maxSize) == Newest(q + cs, maxSize)
    decreases |cs|
  {
    if cs == [] {
      assert q + cs == q;
    } else {
      var q' := Enqueue(q, cs[0], maxSize);
      EnqueueStep(q, cs, maxSize);
      EnqueueAllKeepsNewest(q', cs[1..], maxSize);
    }
  }

  /** Enqueueing N+1 chunks into an empty queue of size N evicts only the first. */
  lemma {:induction false} OverflowEvictsOldest(cs: seq<Chunk>, maxSize: nat)
    requires 0 < maxSize && |cs| == maxSize + 1
    ensures EnqueueAll([], cs, maxSize) == cs[1..]
  {
    var empty: seq<Chunk> := [];
    EnqueueAllKeepsNewest(empty, cs, maxSize);
    assert empty + cs == cs;
    assert |cs| - maxSize == 1;
  }

  // ---------------------------------------------------------------------------
  // The audio engine's state
  // ---------------------------------------------------------------------------

  /** How an attempt to open and start the output device stream ends. */
  datatype StreamOutcome = Started | CreateFailed | StartFailed

  /**
   * The playback flags after a start request: an active stream is kept as
   * it is; otherwise playback is active exactly when the start succeeds, and
   * a stream is assigned unless creating it failed.
   */
  predicate PlaybackStarted(wasActive: bool, wasOpen: bool, outcome: StreamOutcome, active: bool, open: bool) {
    if wasActive then active && open == wasOpen
    else active == (outcome == Started) && open == (if outcome == CreateFailed then wasOpen else true)
  }

  class AudioEngine {
    // device selection
    var selectedInputDevice: Option<int>
    var selectedOutputDevice: Option<int>
    // microphone self-test
    var isMicTesting: bool
    var micTestVolume: real
    var hasMicTestThread: bool
    var micTestStopRequested: bool
    // capture
    var isSendingAudio: bool
    var hasCaptureThread: bool
    var captureStopRequested: bool
    var lastSentSpeakingStatus: bool
    var isLogicallyMuted: bool
    var isMicMuted: bool
    // playback
    var outputStreamOpen: bool
    var isPlaybackActive: bool
    var playbackQueue: seq<Chunk>
    /** The playback queue's maximum size; 0 is unbounded. */
    const queueMaxSize: nat

    ghost predicate Valid()
      reads this
    {
      && 0.0 <= micTestVolume <= 1.0
      && (isSendingAudio <==> hasCaptureThread)
      && (isMicTesting <==> hasMicTestThread)
      && (queueMaxSize > 0 ==> |playbackQueue| <= queueMaxSize)
    }

    /** A fresh engine: nothing selected, nothing running, an unbounded empty queue. */
    constructor ()
      ensures Valid()
      ensures selectedInputDevice == None && selectedOutputDevice == None
      ensures !isMicTesting && micTestVolume == 0.0
      ensures !isSendingAudio && !lastSentSpeakingStatus && !isLogicallyMuted && !isMicMuted
      ensures !outputStreamOpen && !isPlaybackActive && playbackQueue == [] && queueMaxSize == 0
    {
      selectedInputDevice, selectedOutputDevice := None, None;
      isMicTesting, micTestVolume, hasMicTestThread, micTestStopRequested := false, 0.0, false, false;
      isSendingAudio, hasCaptureThread, captureStopRequested := false, false, false;
      lastSentSpeakingStatus, isLogicallyMuted, isMicMuted := false, false, false;
      outputStreamOpen, isPlaybackActive, playbackQueue := false, false, [];
      queueMaxSize := 0;
    }

    /**
     * The capture device callback for one block: updates the last speaking
     * status sent and returns the status event and the forwarded block.
     */
    method CaptureCallback(rms: real, block: Chunk, frames: nat, filter: nat -> real)
        returns (statusChange: Option<bool>, forwarded: Option<Chunk>)
      requires Valid()
      requires 0 < frames && (|block| == 0 || frames <= StandardSampleRate * |block|)
      modifies this`lastSentSpeakingStatus
      ensures Valid()
      ensures var o := CaptureStep(rms, isLogicallyMuted, old(lastSentSpeakingStatus), block, frames, filter);
        statusChange == o.statusChange && forwarded == o.forwarded && lastSentSpeakingStatus == o.speaking
    {
      var isSpeaking := |block| > 0 && rms > RmsThreshold && !isLogicallyMuted;
      statusChange := None;
      if isSpeaking != lastSentSpeakingStatus {
        lastSentSpeakingStatus := isSpeaking;
        statusChange := Some(isSpeaking);
      }
      if isLogicallyMuted || !isSpeaking || |block| == 0 {
        forwarded := None;
        return;
      }
      var rate := EstimatedRate(|block|, frames);
      if Abs(rate - StandardSampleRate as real) > 100.0 {
        EstimatedRateAtLeastOne(|block|, frames);
        forwarded := Some(Resample(block, rate.Floor, StandardSampleRate, filter));
      } else {
        forwarded := Some(block);
      }
    }

    /**
     * The playback device callback: pops at most one chunk and writes exactly
     * `outdata.Length` samples, the chunk fitted to the block or silence.
     */
    method PlaybackCallback(outdata: array<real>)
      requires Valid()
      modifies this`playbackQueue, outdata
      ensures Valid()
      ensures old(playbackQueue) == [] ==> playbackQueue == [] && outdata[..] == Zeros(outdata.Length)
      ensures old(playbackQueue) != [] ==>
        playbackQueue == old(playbackQueue)[1..] && outdata[..] == FitBlock(Some(old(playbackQueue)[0]), outdata.Length)
    {
      if playbackQueue != [] {
        var chunk := playbackQueue[0];
        playbackQueue := playbackQueue[1..];
        forall i | 0 <= i < outdata.Length {
          outdata[i] := if i < |chunk| then chunk[i] else 0.0;
        }
        assert outdata[..] == FitBlock(Some(chunk), outdata.Length);
      } else {
        forall i | 0 <= i < outdata.Length {
          outdata[i] := 0.0;
        }
        assert outdata[..] == Zeros(outdata.Length);
      }
    }

    /** Adds a chunk at the tail of the playback queue, dropping the oldest when full. */
    method AddChunkToPlaybackBuffer(chunk: Chunk)
      requires Valid()
      modifies this`playbackQueue
      ensures Valid()
      ensures playbackQueue == Enqueue(old(playbackQueue), chunk, queueMaxSize)
    {
      if queueMaxSize > 0 && |playbackQueue| >= queueMaxSize {
        playbackQueue := playbackQueue[1..];
      }
      playbackQueue := playbackQueue + [chunk];
    }

    /**
     * Opens the output stream on `device` (the system default when absent)
     * unless playback is already active. `outcome` is what the device layer
     * does: a failed start leaves the created stream assigned but inactive.
     */
    method StartPlaybackStream(device: Option<int>, outcome: StreamOutcome)
      requires Valid()
      modifies this`outputStreamOpen, this`isPlaybackActive
      ensures Valid()
      ensures PlaybackStarted(old(isPlaybackActive), old(outputStreamOpen), outcome, isPlaybackActive, outputStreamOpen)
    {
      if isPlaybackActive {
        return;
      }
      if outcome != CreateFailed {
        outputStreamOpen := true;
        if outcome == Started {
          isPlaybackActive := true;
        }
      }
    }

    /**
     * Stops and closes a running output stream, then drains the queue so no
     * stale audio plays on the next start. When stopping or closing the
     * device raises (`closeFails`), the active flag is left set.
     */
    method StopPlaybackStreamIfRunning(closeFails: bool)
      requires Valid()
      modifies this`outputStreamOpen, this`isPlaybackActive, this`playbackQueue
      ensures Valid()
      ensures !(old(outputStreamOpen) && old(isPlaybackActive)) ==>
        outputStreamOpen == old(outputStreamOpen) && isPlaybackActive == old(isPlaybackActive)
        && playbackQueue == old(playbackQueue)
      ensures old(outputStreamOpen) && old(isPlaybackActive) ==>
        !outputStreamOpen && playbackQueue == [] && isPlaybackActive == closeFails
    {
      if outputStreamOpen && isPlaybackActive {
        if !closeFails {
          isPlaybackActive := false;
        }
        outputStreamOpen := false;
        while playbackQueue != []
          invariant Valid()
          invariant !outputStreamOpen && isPlaybackActive == closeFails
          decreases |playbackQueue|
        {
          playbackQueue := playbackQueue[1..];
        }
      }
    }

    /**
     * Starts the capture thread on `device` unless capture is already
     * running. A device that later fails inside the thread does not reset
     * the flag.
     */
    method StartAudioStream(device: int)
      requires Valid()
      modifies this`captureStopRequested, this`hasCaptureThread, this`isSendingAudio
      ensures Valid()
      ensures old(isSendingAudio) ==> isSendingAudio && captureStopRequested == old(captureStopRequested)
      ensures !old(isSendingAudio) ==> isSendingAudio && !captureStopRequested
    {
      if isSendingAudio {
        return;
      }
      captureStopRequested := false;
      hasCaptureThread := true;
      isSendingAudio := true;
    }

    /**
     * Signals the capture thread to stop and waits a bounded time for it;
     * whether the wait times out, capture is marked stopped and the last
     * speaking status sent is reset.
     */
    method StopAudioStreamIfRunning()
      requires Valid()
      modifies this`captureStopRequested, this`hasCaptureThread, this`isSendingAudio, this`lastSentSpeakingStatus
      ensures Valid()
      ensures !isSendingAudio
      ensures old(isSendingAudio) ==> captureStopRequested && !lastSentSpeakingStatus
      ensures !old(isSendingAudio) ==>
        captureStopRequested == old(captureStopRequested) && lastSentSpeakingStatus == old(lastSentSpeakingStatus)
    {
      if isSendingAudio && hasCaptureThread {
        captureStopRequested := true;
        hasCaptureThread := false;
        isSendingAudio := false;
        lastSentSpeakingStatus := false;
      }
    }

    /** Starts the loopback self-test unless one is running; the meter starts at 0. */
    method StartMicTest(inputDevice: int, outputDevice: Option<int>)
      requires Valid()
      modifies this`micTestStopRequested, this`micTestVolume, this`hasMicTestThread, this`isMicTesting
      ensures Valid()
      ensures old(isMicTesting) ==> isMicTesting && micTestVolume == old(micTestVolume)
      ensures !old(isMicTesting) ==> isMicTesting && micTestVolume == 0.0 && !micTestStopRequested
    {
      if isMicTesting {
        return;
      }
      micTestStopRequested := false;
      micTestVolume := 0.0;
      hasMicTestThread := true;
      isMicTesting := true;
    }

    /** Stops a running self-test (bounded wait) and resets the meter to 0. */
    method StopMicTest()
      requires Valid()
      modifies this`micTestStopRequested, this`micTestVolume, this`hasMicTestThread, this`isMicTesting
      ensures Valid()
      ensures !isMicTesting
      ensures old(isMicTesting) ==> micTestVolume == 0.0 && micTestStopRequested
      ensures !old(isMicTesting) ==> micTestVolume == old(micTestVolume)
    {
      if isMicTesting && hasMicTestThread {
        micTestStopRequested := true;
        hasMicTestThread := false;
        isMicTesting := false;
        micTestVolume := 0.0;
      }
    }

    /**
     * The self-test device callback: loops the input block to the output and
     * sets the meter to `min(1, 10 * norm)`, where `blockNorm` is the block's
     * Euclidean norm.
     */
    method MicTestCallback(indata: Chunk, outdata: array<real>, blockNorm: real)
      requires Valid()
      requires |indata| == outdata.Length && blockNorm >= 0.0
      modifies this`micTestVolume, outdata
      ensures Valid()
      ensures outdata[..] == indata
      ensures micTestVolume == (if blockNorm * 10.0 < 1.0 then blockNorm * 10.0 else 1.0)
    {
      forall i | 0 <= i < outdata.Length {
        outdata[i] := indata[i];
      }
      var level := blockNorm * 10.0;
      micTestVolume := if level < 1.0 then level else 1.0;
    }

    /** The current self-test meter level, always within [0, 1]. */
    method GetMicTestVolume() returns (v: real)
      requires Valid()
      ensures v == micTestVolume
      ensures 0.0 <= v <= 1.0
    {
      v := micTestVolume;
    }
  }
}

=== FILE: config.dfy ===
/**
 * The client's configuration cache (`ConfigLoader`): an in-memory key/value
 * map, mirrored to a JSON file on save. The file is modelled by the last
 * snapshot successfully written.
 */
module Config {
  import opened Wrappers

  /** The JSON values the client stores. */
  datatype Value = Str(s: string) | Bool(b: bool) | Int(i: int) | Null

  type Store = map<string, Value>

  const UsernameKey: string := "username"
  const PasswordKey: string := "password"
  const RememberMeKey: string := "remember_me"

  /** The three keys of the saved login. */
  const LoginKeys: set<string> := {UsernameKey, PasswordKey, RememberMeKey}

  /** `dict.get(k, default)`. */
  function Lookup(m: Store, k: string, default: Value): (r: Value)
    ensures k in m ==> r == m[k]
    ensures k !in m ==> r == default
  {
    if k in m then m[k] else default
  }

  /** The store with the login stored. */
  function WithLogin(m: Store, username: string, password: string, rememberMe: bool): (r: Store)
    ensures r.Keys == m.Keys + LoginKeys
    ensures r[UsernameKey] == Str(username) && r[PasswordKey] == Str(password) && r[RememberMeKey] == Bool(rememberMe)
    ensures forall k :: k in m && k !in LoginKeys ==> r[k] == m[k]
  {
    m[UsernameKey := Str(username)][PasswordKey := Str(password)][RememberMeKey := Bool(rememberMe)]
  }

  /** The store without a login. */
  function WithoutLogin(m: Store): (r: Store)
    ensures r.Keys == m.Keys - LoginKeys
    ensures forall k :: k in r ==> r[k] == m[k]
  {
    m - LoginKeys
  }

  /** A value just set is read back; every other key reads as before. */
  lemma SetThenGet(m: Store, k: string, v: Value, k': string, default: Value)
    ensures Lookup(m[k := v], k, default) == v
    ensures k' != k ==> Lookup(m[k := v], k', default) == Lookup(m, k', default)
  {
  }

  /** A deleted key reads as the default; every other key reads as before. */
  lemma DeleteThenGet(m: Store, k: string, k': string, default: Value)
    ensures Lookup(m - {k}, k, default) == default
    ensures k' != k ==> Lookup(m - {k}, k', default) == Lookup(m, k', default)
  {
  }

  /** Forgetting a login just stored leaves what forgetting it before would have. */
  lemma ResetUndoesUpdate(m: Store, username: string, password: string, rememberMe: bool)
    ensures WithoutLogin(WithLogin(m, username, password, rememberMe)) == WithoutLogin(m)
  {
    var a := WithoutLogin(WithLogin(m, username, password, rememberMe));
    var b := WithoutLogin(m);
    assert a.Keys == b.Keys;
    forall k | k in a ensures a[k] == b[k] {
      assert k !in LoginKeys;
    }
  }

  class ConfigStore {
    /** The cache. */
    var data: Store
    /** What the file holds after the last successful save, if any. */
    var saved: Option<Store>

    /** A cache loaded from the file (`loaded`), nothing saved yet. */
    constructor (loaded: Store)
      ensures data == loaded && saved == None
    {
      data, saved := loaded, None;
    }

    /** The stored value of `k`, or `default` when the key is absent. */
    function Get(k: string, default: Value): (r: Value)
      reads this
      ensures k in data ==> r == data[k]
      ensures k !in data ==> r == default
    {
      Lookup(data, k, default)
    }

    /** Sets `k`; every other key is untouched. */
    method Set(k: string, v: Value)
      modifies this`data
      ensures data == old(data)[k := v]
      ensures Get(k, Null) == v
    {
      data := data[k := v];
    }

    /** Removes `k` if present. */
    method Delete(k: string)
      modifies this`data
      ensures data == old(data) - {k}
      ensures k !in old(data) ==> data == old(data)
    {
      if k in data {
        data := data - {k};
      }
    }

    method Clear()
      modifies this`data
      ensures data == map[]
    {
      data := map[];
    }

    /**
     * Saves the cache; given new data, the cache is replaced by it first.
     * `writeOk` is whether writing the file succeeds; the model records only
     * successful writes.
     */
    method SaveConfig(newData: Option<Store>, writeOk: bool)
      modifies this
      ensures data == if newData.Some? then newData.value else old(data)
      ensures saved == if writeOk then Some(data) else old(saved)
    {
      if newData.Some? {
        data := newData.value;
      }
      if writeOk {
        saved := Some(data);
      }
    }

    /** Stores the login and saves. */
    method UpdateLoginInfo(username: string, password: string, rememberMe: bool, writeOk: bool)
      modifies this
      ensures data == WithLogin(old(data), username, password, rememberMe)
      ensures saved == if writeOk then Some(data) else old(saved)
    {
      Set(UsernameKey, Str(username));
      Set(PasswordKey, Str(password));
      Set(RememberMeKey, Bool(rememberMe));
      SaveConfig(None, writeOk);
    }

    /** Forgets the login, keeping every other key, and saves. */
    method ResetLoginInfo(writeOk: bool)
      modifies this
      ensures data == WithoutLogin(old(data))
      ensures saved == if writeOk then Some(data) else old(saved)
    {
      Delete(UsernameKey);
      Delete(PasswordKey);
      Delete(RememberMeKey);
      SaveConfig(None, writeOk);
    }
  }
}

=== FILE: messages.dfy ===
/**
 * The chat message list of the current text channel (`MessageManager`): the
 * loaded messages, oldest first, the id of the oldest message loaded, and the
 * "more history available" and "loading history" flags; the handlers for
 * history batches and new messages, and the read-only queries over the list.
 */
module Messages {
  import opened Wrappers

  /**
   * A chat message. A missing `id` or `channel_id` is `None`; a missing
   * username, content or timestamp reads as the empty string.
   */
  datatype Message = Message(id: Option<int>, channelId: Option<int>, username: string, content: string, timestamp: string)

  /** How many older messages one "load more" asks for. */
  const OlderMessageLoadCount: int := 20

  // ---------------------------------------------------------------------------
  // Ordering by timestamp
  // ---------------------------------------------------------------------------

  /** Python's string order: lexicographic on code points. */
  predicate StrLt(a: string, b: string)
    decreases |a|
  {
    if a == [] then b != []
    else if b == [] then false
    else a[0] < b[0] || (a[0] == b[0] && StrLt(a[1..], b[1..]))
  }

  lemma {:induction false} StrLtAsymmetric(a: string, b: string)
    ensures !(StrLt(a, b) && StrLt(b, a))
    decreases |a|
  {
    if a != [] && b != [] && a[0] == b[0] {
      StrLtAsymmetric(a[1..], b[1..]);
    }
  }

  lemma {:induction false} StrLtTransitive(a: string, b: string, c: string)
    requires StrLt(a, b) && StrLt(b, c)
    ensures StrLt(a, c)
    decreases |a|
  {
    if a != [] && a[0] == b[0] && b[0] == c[0] {
      StrLtTransitive(a[1..], b[1..], c[1..]);
    }
  }

  lemma {:induction false} StrLtTotal(a: string, b: string)
    ensures StrLt(a, b) || StrLt(b, a) || a == b
    decreases |a|
  {
    if a != [] && b != [] && a[0] == b[0] {
      StrLtTotal(a[1..], b[1..]);
      if a[1..] == b[1..] {
        assert a == [a[0]] + a[1..] && b == [b[0]] + b[1..];
      }
    }
  }

  /**
   * Whether a message with timestamp `a` may stand before one with timestamp
   * `b`: not older when sorting newest first, not newer when sorting oldest
   * first.
   */
  predicate Precedes(a: string, b: string, newestFirst: bool) {
    if newestFirst then !StrLt(a, b) else !StrLt(b, a)
  }

  lemma PrecedesTotal(a: string, b: string, newestFirst: bool)
    ensures Precedes(a, b, newestFirst) || Precedes(b, a, newestFirst)
  {
    StrLtAsymmetric(a, b);
  }

  lemma PrecedesTransitive(a: string, b: string, c: string, newestFirst: bool)
    requires Precedes(a, b, newestFirst) && Precedes(b, c, newestFirst)
    ensures Precedes(a, c, newestFirst)
  {
    if !Precedes(a, c, newestFirst) {
      StrLtTotal(a, b);
      StrLtTotal(b, c);
      if newestFirst {
        StrLtTransitive(a, c, b);
        StrLtAsymmetric(a, b);
      } else {
        StrLtTransitive(c, a, b);
        StrLtAsymmetric(c, b);
      }
    }
  }

  /** The list is in timestamp order (newest first, or oldest first). */
  ghost predicate Ordered(s: seq<Message>, newestFirst: bool) {
    forall i, j :: 0 <= i < j < |s| ==> Precedes(s[i].timestamp, s[j].timestamp, newestFirst)
  }

  /**
   * Inserts `m` before the first message it may precede. `Precedes` is
   * reflexive, so `m` goes before any equal ones.
   */
  function Insert(m: Message, s: seq<Message>, newestFirst: bool): (r: seq<Message>)
    ensures multiset(r) == multiset(s) + multiset{m}
    ensures |r| == |s| + 1
  {
    if s == [] then [m]
    else if Precedes(m.timestamp, s[0].timestamp, newestFirst) then [m] + s
    else
      assert s == [s[0]] + s[1..];
      [s[0]] + Insert(m, s[1..], newestFirst)
  }

  /** A stable sort by timestamp, as the list's `sort` with a timestamp key. */
  function SortByTimestamp(s: seq<Message>, newestFirst: bool): (r: seq<Message>)
    ensures multiset(r) == multiset(s)
    ensures |r| == |s|
  {
    if s == [] then []
    else
      assert s == [s[0]] + s[1..];
      Insert(s[0], SortByTimestamp(s[1..], newestFirst), newestFirst)
  }

  /** An ordered list stays ordered with a message in front that may precede all of it. */
  lemma ConsOrdered(x: Message, s: seq<Message>, newestFirst: bool)
    requires Ordered(s, newestFirst)
    requires forall j :: 0 <= j < |s| ==> Precedes(x.timestamp, s[j].timestamp, newestFirst)
    ensures Ordered([x] + s, newestFirst)
  {
    var r := [x] + s;
    forall i, j | 0 <= i < j < |r| ensures Precedes(r[i].timestamp, r[j].timestamp, newestFirst) {
      assert r[j] == s[j - 1];
      if i > 0 {
        assert r[i] == s[i - 1];
      }
    }
  }

  /** What may precede every message of `s` and `m` may precede every message of a reordering of them. */
  lemma PrecedesAllOfPermutation(x: string, s: seq<Message>, m: Message, rest: seq<Message>, newestFirst: bool)
    requires forall k :: 0 <= k < |s| ==> Precedes(x, s[k].timestamp, newestFirst)
    requires Precedes(x, m.timestamp, newestFirst)
    requires multiset(rest) == multiset(s) + multiset{m}
    ensures forall j :: 0 <= j < |rest| ==> Precedes(x, rest[j].timestamp, newestFirst)
  {
    forall j | 0 <= j < |rest| ensures Precedes(x, rest[j].timestamp, newestFirst) {
      assert rest[j] in multiset(rest);
      if rest[j] != m {
        assert rest[j] in multiset(s);
        var k :| 0 <= k < |s| && s[k] == rest[j];
      }
    }
  }

  lemma {:induction false} InsertOrdered(m: Message, s: seq<Message>, newestFirst: bool)
    requires Ordered(s, newestFirst)
    ensures Ordered(Insert(m, s, newestFirst), newestFirst)
  {
    if s == [] {
    } else if Precedes(m.timestamp, s[0].timestamp, newestFirst) {
      forall j | 0 <= j < |s| ensures Precedes(m.timestamp, s[j].timestamp, newestFirst) {
        if j > 0 {
          PrecedesTransitive(m.timestamp, s[0].timestamp, s[j].timestamp, newestFirst);
        }
      }
      ConsOrdered(m, s, newestFirst);
    } else {
      var tail := s[1..];
      var rest := Insert(m, tail, newestFirst);
      assert Ordered(tail, newestFirst) by {
        forall i, j | 0 <= i < j < |tail| ensures Precedes(tail[i].timestamp, tail[j].timestamp, newestFirst) {
          assert tail[i] == s[i + 1] && tail[j] == s[j + 1];
        }
      }
      InsertOrdered(m, tail, newestFirst);
      PrecedesTotal(m.timestamp, s[0].timestamp, newestFirst);
      assert forall k :: 0 <= k < |tail| ==> Precedes(s[0].timestamp, tail[k].timestamp, newestFirst) by {
        forall k | 0 <= k < |tail| ensures Precedes(s[0].timestamp, tail[k].timestamp, newestFirst) {
          assert tail[k] == s[k + 1];
        }
      }
      PrecedesAllOfPermutation(s[0].timestamp, tail, m, rest, newestFirst);
      ConsOrdered(s[0], rest, newestFirst);
    }
  }

  /** The sort orders the list by timestamp. */
  lemma {:induction false} SortOrdered(s: seq<Message>, newestFirst: bool)
    ensures Ordered(SortByTimestamp(s, newestFirst), newestFirst)
  {
    if s != [] {
      SortOrdered(s[1..], newestFirst);
      InsertOrdered(s[0], SortByTimestamp(s[1..], newestFirst), newestFirst);
    }
  }

  /**
   * After sorting oldest first, the head is a message of the batch with the
   * earliest timestamp; newest first, the latest.
   */
  lemma SortedHeadIsExtreme(s: seq<Message>, newestFirst: bool)
    requires s != []
    ensures SortByTimestamp(s, newestFirst)[0] in s
    ensures forall m :: m in s ==> Precedes(SortByTimestamp(s, newestFirst)[0].timestamp, m.timestamp, newestFirst)
  {
    var r := SortByTimestamp(s, newestFirst);
    SortOrdered(s, newestFirst);
    assert r[0] in multiset(r);
    forall m | m in s ensures Precedes(r[0].timestamp, m.timestamp, newestFirst) {
      assert m in multiset(r);
      var j :| 0 <= j < |r| && r[j] == m;
      if j == 0 {
        PrecedesTotal(m.timestamp, m.timestamp, newestFirst);
      }
    }
  }

  /**
   * The id a history batch leaves as "oldest loaded" as written: the batch is
   * sorted newest first and the head's id is recorded.
   */
  function OldestIdAfterBatchAsWritten(batch: seq<Message>): (r: Option<int>)
    ensures batch == [] ==> r == None
    ensures batch != [] ==> exists m ::
      && m in batch && r == m.id
      && (forall m' :: m' in batch ==> !StrLt(m.timestamp, m'.timestamp))
  {
    if batch == [] then None
    else
      SortedHeadIsExtreme(batch, true);
      SortByTimestamp(batch, true)[0].id
  }

  /**
   * The two-message batch that shows the discrepancy: the "oldest" id
   * recorded is that of the newer message.
   */
  lemma OldestIdAsWrittenIsNewest()
    ensures var older := Message(Some(1), Some(5), "ann", "hi", "2024-01-01T10:00");
      var newer := Message(Some(2), Some(5), "bob", "yo", "2024-01-01T10:05");
      OldestIdAfterBatchAsWritten([older, newer]) == Some(2) && StrLt(older.timestamp, newer.timestamp)
  {
    var older := Message(Some(1), Some(5), "ann", "hi", "2024-01-01T10:00");
    var newer := Message(Some(2), Some(5), "bob", "yo", "2024-01-01T10:05");
    assert StrLt(older.timestamp, newer.timestamp) by {
      assert older.timestamp[..15] == newer.timestamp[..15];
      StrLtPrefix(older.timestamp, newer.timestamp, 15);
    }
    StrLtAsymmetric(older.timestamp, newer.timestamp);
    assert SortByTimestamp([newer], true) == [newer];
    assert [older, newer][1..] == [newer];
  }

  /**
   * The id a history batch leaves as "oldest loaded" once sorted oldest
   * first: that of a message no other message of the batch predates.
   */
  function OldestIdAfterBatch(batch: seq<Message>): (r: Option<int>)
    ensures batch == [] ==> r == None
    ensures batch != [] ==> exists m ::
      && m in batch && r == m.id
      && (forall m' :: m' in batch ==> !StrLt(m'.timestamp, m.timestamp))
  {
    if batch == [] then None
    else
      SortedHeadIsExtreme(batch, false);
      SortByTimestamp(batch, false)[0].id
  }

  /** On the same batch, sorting oldest first records the older message's id. */
  lemma OldestIdIsOldest()
    ensures var older := Message(Some(1), Some(5), "ann", "hi", "2024-01-01T10:00");
      var newer := Message(Some(2), Some(5), "bob", "yo", "2024-01-01T10:05");
      OldestIdAfterBatch([older, newer]) == Some(1)
  {
    var older := Message(Some(1), Some(5), "ann", "hi", "2024-01-01T10:00");
    var newer := Message(Some(2), Some(5), "bob", "yo", "2024-01-01T10:05");
    assert StrLt(older.timestamp, newer.timestamp) by {
      assert older.timestamp[..15] == newer.timestamp[..15];
      StrLtPrefix(older.timestamp, newer.timestamp, 15);
    }
    StrLtAsymmetric(older.timestamp, newer.timestamp);
    assert SortByTimestamp([newer], false) == [newer];
    assert [older, newer][1..] == [newer];
  }

  /** Strings agreeing on their first `n` characters compare as their suffixes do. */
  lemma {:induction false} StrLtPrefix(a: string, b: string, n: nat)
    requires n <= |a| && n <= |b| && a[..n] == b[..n]
    requires StrLt(a[n..], b[n..])
    ensures StrLt(a, b)
    decreases n
  {
    if n > 0 {
      assert a[0] == a[..n][0] == b[..n][0] == b[0];
      assert a[1..][..n - 1] == a[1..n] == a[..n][1..];
      assert b[1..][..n - 1] == b[1..n] == b[..n][1..];
      assert a[1..][n - 1..] == a[n..] && b[1..][n - 1..] == b[n..];
      StrLtPrefix(a[1..], b[1..], n - 1);
    }
  }

  // ---------------------------------------------------------------------------
  // Filters and queries
  // ---------------------------------------------------------------------------

  /** The messages satisfying `p`, in list order. */
  function Keep(s: seq<Message>, p: Message -> bool): (r: seq<Message>)
    ensures |r| <= |s|
  {
    if s == [] then []
    else Keep(s[..|s| - 1], p) + (if p(s[|s| - 1]) then [s[|s| - 1]] else [])
  }

  /** `Keep` keeps exactly the messages satisfying `p`. */
  lemma {:induction false} KeepMembers(s: seq<Message>, p: Message -> bool, m: Message)
    ensures m in Keep(s, p) <==> m in s && p(m)
  {
    if s != [] {
      KeepMembers(s[..|s| - 1], p, m);
      assert s == s[..|s| - 1] + [s[|s| - 1]];
    }
  }

  /** `Keep` preserves order: filtering a concatenation concatenates the filtered parts. */
  lemma {:induction false} KeepConcat(a: seq<Message>, b: seq<Message>, p: Message -> bool)
    ensures Keep(a + b, p) == Keep(a, p) + Keep(b, p)
    decreases |b|
  {
    if b == [] {
      assert a + b == a;
    } else {
      var b' := b[..|b| - 1];
      KeepConcat(a, b', p);
      assert (a + b)[..|a + b| - 1] == a + b';
      assert (a + b)[|a + b| - 1] == b[|b| - 1];
    }
  }

  /** ASCII lower-casing. */
  function Lower(s: string): (r: string)
    ensures |r| == |s|
    ensures forall i :: 0 <= i < |s| ==> r[i] == (if 'A' <= s[i] <= 'Z' then (s[i] as int + 32) as char else s[i])
  {
    seq(|s|, i requires 0 <= i < |s| => if 'A' <= s[i] <= 'Z' then (s[i] as int + 32) as char else s[i])
  }

  /** The ASCII characters `str.strip` removes: space, \t to \r, and \x1c to \x1f. */
  predicate IsSpace(c: char) {
    || c == ' ' || c == '\t' || c == '\n' || c == '\r' || c == '\U{000B}' || c == '\U{000C}'
    || ('\U{001C}' <= c <= '\U{001F}')
  }

  /** `query.strip()` is empty. */
  predicate IsBlank(q: string) {
    forall i :: 0 <= i < |q| ==> IsSpace(q[i])
  }

  /** `needle` occurs in `hay` starting at index `i`. */
  predicate OccursAt(hay: string, needle: string, i: int) {
    0 <= i && i + |needle| <= |hay| && hay[i..i + |needle|] == needle
  }

  /** Python's `needle in hay` on strings. */
  predicate Contains(hay: string, needle: string) {
    exists i :: 0 <= i <= |hay| && OccursAt(hay, needle, i)
  }

  predicate MatchesQuery(m: Message, q: string) {
    Contains(Lower(m.content), Lower(q)) || Contains(Lower(m.username), Lower(q))
  }

  /** Whether a message's username equals `name`, ignoring case. */
  function ByUser(name: string): Message -> bool {
    (m: Message) => Lower(m.username) == Lower(name)
  }

  /** What a search returns: nothing for a blank query, else the matching messages in order. */
  function SearchResult(s: seq<Message>, q: string): seq<Message> {
    if IsBlank(q) then [] else Keep(s, m => MatchesQuery(m, q))
  }

  /** A search returns exactly the messages of the list that match the query. */
  lemma SearchResultMembers(s: seq<Message>, q: string, m: Message)
    ensures m in SearchResult(s, q) <==> !IsBlank(q) && m in s && MatchesQuery(m, q)
  {
    if !IsBlank(q) {
      KeepMembers(s, m => MatchesQuery(m, q), m);
    }
  }

  /** The recent-messages slice `s[-count:]`, empty for an empty list. */
  function Recent(s: seq<Message>, count: int): (r: seq<Message>)
    ensures count > 0 && count <= |s| ==> r == s[|s| - count..]
    ensures count > 0 && count > |s| ==> r == s
    ensures count == 0 ==> r == s
    ensures count < 0 && -count <= |s| ==> r == s[-count..]
    ensures count < 0 && -count > |s| ==> r == []
    ensures |r| <= |s| && (r != [] ==> r[|r| - 1] == s[|s| - 1])
  {
    if s == [] then []
    else if count > 0 then (if count <= |s| then s[|s| - count..] else s)
    else if count == 0 then s
    else if -count <= |s| then s[-count..]
    else []
  }

  /** Whether `handle_new_message` has a current-channel lookup, and what it reports. */
  datatype ChannelLookup = NoLookup | CurrentChannel(channel: Option<int>)

  /** A request to fetch older messages before a message id. */
  datatype FetchRequest = FetchRequest(beforeId: Option<int>, count: int)

  // ---------------------------------------------------------------------------
  // The list
  // ---------------------------------------------------------------------------

  class MessageList {
    var messages: seq<Message>
    var oldestId: Option<int>
    var hasMore: bool
    var loading: bool

    constructor ()
      ensures messages == [] && oldestId == None && !hasMore && !loading
    {
      messages, oldestId, hasMore, loading := [], None, false, false;
    }

    /** Empties the list and resets the id and both flags. */
    method Clear()
      modifies this
      ensures messages == [] && oldestId == None && !hasMore && !loading
    {
      messages, oldestId, hasMore, loading := [], None, false, false;
    }

    /** Appends a message; earlier messages stay as they were. */
    method AddMessage(m: Message)
      modifies this`messages
      ensures messages == old(messages) + [m]
      ensures messages[..|old(messages)|] == old(messages) && messages[|messages| - 1] == m
    {
      messages := messages + [m];
    }

    /** Puts a batch in front of the list; a non-empty batch's head becomes the oldest id. */
    method PrependMessages(batch: seq<Message>)
      modifies this`messages, this`oldestId
      ensures messages == batch + old(messages)
      ensures oldestId == if batch == [] then old(oldestId) else batch[0].id
    {
      messages := batch + messages;
      if batch != [] {
        oldestId := batch[0].id;
      }
    }

    /** Replaces the list and the "more history" flag; the oldest id is the new head's. */
    method SetInitialMessages(batch: seq<Message>, more: bool)
      modifies this`messages, this`oldestId, this`hasMore
      ensures messages == batch && hasMore == more
      ensures oldestId == if batch == [] then None else batch[0].id
    {
      messages := batch;
      hasMore := more;
      oldestId := if batch != [] then batch[0].id else None;
    }

    /**
     * "Load more": unless already loading or nothing more is available, sets
     * the loading flag and asks for the messages before the oldest id.
     */
    method RequestOlderMessages() returns (fetch: Option<FetchRequest>)
      modifies this`loading
      ensures old(loading) || !hasMore ==> fetch == None && loading == old(loading)
      ensures !old(loading) && hasMore ==> loading && fetch == Some(FetchRequest(oldestId, OlderMessageLoadCount))
    {
      if loading || !hasMore {
        return None;
      }
      loading := true;
      fetch := Some(FetchRequest(oldestId, OlderMessageLoadCount));
    }

    /**
     * A batch of older messages arrives: sorted newest first, as written, and
     * put in front of the list, so the id recorded as the oldest is that of
     * the batch's newest message. The "more" flag is copied and loading
     * always ends.
     */
    method HandleOlderMessagesLoaded(batch: seq<Message>, more: bool)
      modifies this`messages, this`oldestId, this`hasMore, this`loading
      ensures messages == SortByTimestamp(batch, true) + old(messages)
      ensures oldestId == if batch == [] then old(oldestId) else OldestIdAfterBatchAsWritten(batch)
      ensures hasMore == more && !loading
    {
      if batch != [] {
        PrependMessages(SortByTimestamp(batch, true));
      }
      hasMore := more;
      loading := false;
    }

    /**
     * The same handler with the batch sorted oldest first, which keeps the
     * list in chronological order and records the id of the batch's earliest
     * message as the oldest.
     */
    method HandleOlderMessagesLoadedOldestFirst(batch: seq<Message>, more: bool)
      modifies this`messages, this`oldestId, this`hasMore, this`loading
      ensures messages == SortByTimestamp(batch, false) + old(messages)
      ensures oldestId == if batch == [] then old(oldestId) else OldestIdAfterBatch(batch)
      ensures hasMore == more && !loading
    {
      if batch != [] {
        PrependMessages(SortByTimestamp(batch, false));
      }
      hasMore := more;
      loading := false;
    }

    /**
     * The first history batch of a channel arrives: sorted newest first, as
     * written, it replaces the list, and the id recorded as the oldest is
     * that of the newest message.
     */
    method HandleHistoricalMessagesLoaded(batch: seq<Message>, more: bool)
      modifies this`messages, this`oldestId, this`hasMore
      ensures messages == SortByTimestamp(batch, true) && Ordered(messages, true)
      ensures oldestId == OldestIdAfterBatchAsWritten(batch)
      ensures hasMore == more
    {
      SortOrdered(batch, true);
      SetInitialMessages(SortByTimestamp(batch, true), more);
    }

    /** The same handler with the batch sorted oldest first. */
    method HandleHistoricalMessagesLoadedOldestFirst(batch: seq<Message>, more: bool)
      modifies this`messages, this`oldestId, this`hasMore
      ensures messages == SortByTimestamp(batch, false) && Ordered(messages, false)
      ensures oldestId == OldestIdAfterBatch(batch)
      ensures hasMore == more
    {
      SortOrdered(batch, false);
      SetInitialMessages(SortByTimestamp(batch, false), more);
    }

    /**
     * A new message arrives: appended unless the current-channel lookup
     * reports a different channel than the message's.
     */
    method HandleNewMessage(m: Message, lookup: ChannelLookup)
      modifies this`messages
      ensures messages == if lookup.CurrentChannel? && m.channelId != lookup.channel then old(messages) else old(messages) + [m]
    {
      if lookup.CurrentChannel? && m.channelId != lookup.channel {
        return;
      }
      AddMessage(m);
    }

    function MessageCount(): (n: nat)
      reads this
      ensures n == |messages|
    {
      |messages|
    }

    /** The last message of the list, if any. */
    function LatestMessage(): (r: Option<Message>)
      reads this
      ensures r.None? <==> messages == []
      ensures r.Some? ==> r.value == messages[|messages| - 1]
    {
      if messages != [] then Some(messages[|messages| - 1]) else None
    }

    /** The first message of the list, if any. */
    function OldestMessage(): (r: Option<Message>)
      reads this
      ensures r.None? <==> messages == []
      ensures r.Some? ==> r.value == messages[0]
    {
      if messages != [] then Some(messages[0]) else None
    }

    /** Case-insensitive search over contents and usernames, in list order. */
    method SearchMessages(query: string) returns (results: seq<Message>)
      ensures results == SearchResult(messages, query)
    {
      if IsBlank(query) {
        return [];
      }
      results := [];
      var i := 0;
      while i < |messages|
        invariant 0 <= i <= |messages|
        invariant results == Keep(messages[..i], m => MatchesQuery(m, query))
      {
        assert messages[..i + 1][..i] == messages[..i];
        if MatchesQuery(messages[i], query) {
          results := results + [messages[i]];
        }
        i := i + 1;
      }
      assert messages[..i] == messages;
    }

    /**
     * The messages whose username equals `name` ignoring case, in list order
     * and once per occurrence: the list filtered by `ByUser(name)`.
     */
    function MessagesByUser(name: string): (r: seq<Message>)
      reads this
      ensures r == Keep(messages, ByUser(name))
      ensures forall m :: m in r <==> m in messages && Lower(m.username) == Lower(name)
    {
      var p := ByUser(name);
      assert forall m :: m in Keep(messages, p) <==> m in messages && p(m) by {
        forall m ensures m in Keep(messages, p) <==> m in messages && p(m) {
          KeepMembers(messages, p, m);
        }
      }
      Keep(messages, p)
    }

    /** The last `count` messages, with Python's negative-slice semantics. */
    function RecentMessages(count: int): (r: seq<Message>)
      reads this
      ensures r == Recent(messages, count)
    {
      Recent(messages, count)
    }
  }
}

=== FILE: mute.dfy ===
/**
 * Logical mute: the microphone counts as muted when the mute button is on or
 * the input-volume slider (0..100) is at 0. The handlers of the mute button,
 * the volume slider and "confirm join" each update the triple
 * (button, logical mute, slider).
 */
module MuteLogic {

  /** The slider value restored when unmuting at volume 0: `int(0.8 * 100)`. */
  const UnmuteVolume: int := 80

  datatype MuteState = MuteState(micMuted: bool, logicallyMuted: bool, volume: int)

  /** The logical flag agrees with the button and the slider. */
  predicate Consistent(m: MuteState) {
    m.logicallyMuted == (m.micMuted || m.volume == 0)
  }

  /** A silent slider always comes with the button muted. */
  predicate SilentIsMuted(m: MuteState) {
    m.volume == 0 ==> m.micMuted
  }

  /** Recomputes the logical flag from the button and the slider. */
  function Recompute(m: MuteState): (r: MuteState)
    ensures Consistent(r)
    ensures r.micMuted == m.micMuted && r.volume == m.volume
    ensures Consistent(m) ==> r == m
  {
    m.(logicallyMuted := m.micMuted || m.volume == 0)
  }

  /**
   * The mute button: flips the button, restores the slider to 80 when
   * unmuting at volume 0, then recomputes, so the logical flag ends equal to
   * the button.
   */
  function ToggleMute(m: MuteState): (r: MuteState)
    ensures r.micMuted == !m.micMuted
    ensures r.volume == (if m.volume == 0 && m.micMuted then UnmuteVolume else m.volume)
    ensures Consistent(r) && SilentIsMuted(r)
    ensures r.logicallyMuted == r.micMuted
  {
    var toggled := m.(micMuted := !m.micMuted);
    var restored := if toggled.volume == 0 && !toggled.micMuted then toggled.(volume := UnmuteVolume) else toggled;
    Recompute(restored)
  }

  /**
   * The volume slider moved to `v`: a volume of 0 forces the button to
   * muted, then the logical flag is recomputed.
   */
  function VolumeChanged(m: MuteState, v: int): (r: MuteState)
    ensures r.volume == v
    ensures v == 0 ==> r.micMuted && r.logicallyMuted
    ensures v != 0 ==> r.micMuted == m.micMuted && r.logicallyMuted == m.micMuted
    ensures Consistent(r) && SilentIsMuted(r)
  {
    var forced := if v == 0 && !m.micMuted then m.(micMuted := true) else m;
    Recompute(forced.(volume := v))
  }

  /**
   * "Confirm join" as written: a non-zero slider resets the button to
   * unmuted, and the logical flag is left as it was.
   */
  function JoinResetAsWritten(m: MuteState): (r: MuteState)
    ensures m.volume > 0 ==> !r.micMuted
    ensures m.volume <= 0 ==> r.micMuted == m.micMuted
    ensures r.logicallyMuted == m.logicallyMuted && r.volume == m.volume
  {
    if m.volume > 0 then m.(micMuted := false) else m
  }

  /**
   * The desynchronisation: muted by the button at volume 50, joining resets
   * the button but the capture stays logically muted.
   */
  lemma JoinResetAsWrittenDesyncs()
    ensures var m := MuteState(true, true, 50);
      Consistent(m) && SilentIsMuted(m) && !Consistent(JoinResetAsWritten(m))
  {
  }

  /**
   * "Confirm join" with the logical flag recomputed after the reset: a
   * non-zero slider leaves the microphone unmuted in both senses.
   */
  function JoinReset(m: MuteState): (r: MuteState)
    ensures Consistent(r)
    ensures r.volume == m.volume
    ensures m.volume > 0 ==> !r.micMuted && !r.logicallyMuted
    ensures m.volume <= 0 ==> r.micMuted == m.micMuted
    ensures SilentIsMuted(m) ==> SilentIsMuted(r)
  {
    Recompute(JoinResetAsWritten(m))
  }

  /**
   * Under both invariants the logical flag is just the button, so the
   * `is_unmuted` status a peer receives is the negated button.
   */
  lemma LogicalIsButton(m: MuteState)
    requires Consistent(m) && SilentIsMuted(m)
    ensures m.logicallyMuted == m.micMuted
  {
  }
}

=== FILE: session.dfy ===
/**
 * The voice session of the client's main window: which voice channel is
 * previewed or joined, the roster of that channel's users, the per-user
 * activity timers, the mute button and input-volume slider, and the choice of
 * audio devices. Socket emits are appended to `emitted`; the audio engine's
 * start/stop operations are called on `audio`. UI refreshes are not modelled.
 */
module Session {
  import opened Wrappers
  import opened Audio
  import opened MuteLogic
  import ActivityTimers

  type ChannelId = int
  type UserId = int

  /** One user card of the voice-channel roster. */
  datatype RemoteUser = RemoteUser(id: UserId, username: string, micMuted: bool, cardSpeaking: bool)

  /** One entry of a roster snapshot sent by the server. */
  datatype UserEntry = UserEntry(userId: UserId, username: string)

  /** Socket events the session sends. */
  datatype Emit =
    | JoinVoiceChannel(channel: ChannelId)
    | LeaveVoiceChannel(channel: ChannelId)
    | MicrophoneStatus(channel: ChannelId, isUnmuted: bool)

  /** An audio device as listed by the device layer. */
  datatype Device = Device(id: int, name: string)

  /** Python truthiness of an optional id: present and non-zero. */
  predicate TruthyId(o: Option<int>) {
    o.Some? && o.value != 0
  }

  // ---------------------------------------------------------------------------
  // Membership and button visibility
  // ---------------------------------------------------------------------------

  /**
   * The membership invariant: joined exactly when there is a current voice
   * channel, and the joined channel is the previewed one.
   */
  predicate Membership(previewing: Option<ChannelId>, currentVoice: Option<ChannelId>, active: bool) {
    && (active <==> currentVoice.Some?)
    && (active ==> currentVoice == previewing)
  }

  /** Which of the voice panel's controls are shown. */
  datatype Buttons = Buttons(confirmJoin: bool, leave: bool, settings: bool)

  /** The voice panel's visibility truth table. */
  function Visibility(previewing: Option<ChannelId>, active: bool): (b: Buttons)
    ensures !(b.confirmJoin && b.leave)
    ensures b.settings == b.leave
    ensures previewing.None? ==> b == Buttons(false, false, false)
  {
    if previewing.None? then Buttons(false, false, false)
    else if active then Buttons(false, true, true)
    else Buttons(true, false, false)
  }

  /**
   * Under the membership invariant the leave button and the settings are shown
   * exactly while joined, and "join" exactly while previewing without being
   * joined.
   */
  lemma VisibilityFollowsMembership(previewing: Option<ChannelId>, currentVoice: Option<ChannelId>, active: bool)
    requires Membership(previewing, currentVoice, active)
    ensures Visibility(previewing, active).leave <==> active
    ensures Visibility(previewing, active).settings <==> currentVoice.Some?
    ensures Visibility(previewing, active).confirmJoin <==> previewing.Some? && !active
  {
  }

  // ---------------------------------------------------------------------------
  // Roster snapshots
  // ---------------------------------------------------------------------------

  /** A new roster card: unmuted, not speaking. */
  function FreshUser(id: UserId, username: string): RemoteUser {
    RemoteUser(id, username, false, false)
  }

  /**
   * The roster a snapshot produces, inserting entries in order so that a
   * later entry for the same user replaces an earlier one.
   */
  function RosterOf(users: seq<UserEntry>): map<UserId, RemoteUser> {
    if users == [] then map[]
    else
      var last := users[|users| - 1];
      RosterOf(users[..|users| - 1])[last.userId := FreshUser(last.userId, last.username)]
  }

  /** A snapshot's roster lists exactly the users the snapshot names. */
  lemma {:induction false} RosterOfKeys(users: seq<UserEntry>)
    ensures RosterOf(users).Keys == set i | 0 <= i < |users| :: users[i].userId
  {
    if users != [] {
      var init := users[..|users| - 1];
      RosterOfKeys(init);
      assert forall i :: 0 <= i < |init| ==> init[i] == users[i];
      var ids := set i | 0 <= i < |users| :: users[i].userId;
      forall k | k in ids ensures k in RosterOf(users) {
        var i :| 0 <= i < |users| && users[i].userId == k;
        if i < |init| {
          assert init[i].userId == k;
        }
      }
    }
  }

  /**
   * Every card of a snapshot's roster is keyed by its own id, unmuted, not
   * speaking, and named as in the snapshot's last entry for that id.
   */
  lemma {:induction false} RosterOfEntries(users: seq<UserEntry>, k: UserId)
    requires k in RosterOf(users)
    ensures RosterOf(users)[k].id == k && !RosterOf(users)[k].micMuted && !RosterOf(users)[k].cardSpeaking
    ensures exists i ::
      && 0 <= i < |users| && users[i].userId == k && RosterOf(users)[k].username == users[i].username
      && (forall j :: i < j < |users| ==> users[j].userId != k)
  {
    var init := users[..|users| - 1];
    var last := users[|users| - 1];
    if k == last.userId {
      assert users[|users| - 1].userId == k;
    } else {
      RosterOfEntries(init, k);
      var i :| 0 <= i < |init| && init[i].userId == k && RosterOf(init)[k].username == init[i].username
        && (forall j :: i < j < |init| ==> init[j].userId != k);
      assert users[i] == init[i];
      forall j | i < j < |users| ensures users[j].userId != k {
        if j < |init| {
          assert users[j] == init[j];
        }
      }
    }
  }

  // ---------------------------------------------------------------------------
  // Inbound audio
  // ---------------------------------------------------------------------------

  /**
   * What an inbound chunk becomes before it is queued for playback: resampled
   * to 48 kHz when sent at another rate, then normalised at volume 1. `None`
   * is the error path the handler catches: a non-positive rate (division by
   * zero or a negative output length), or a block that resamples to nothing
   * (the peak of an empty block is undefined).
   */
  function InboundChunk(samples: Chunk, rate: int, filter: nat -> real): (r: Option<Chunk>)
    ensures rate == StandardSampleRate && |samples| > 0 ==> r == Some(Normalize(samples, 1.0))
    ensures rate <= 0 || |samples| == 0 ==> r == None
    ensures r.Some? ==> |r.value| > 0 && forall i :: 0 <= i < |r.value| ==> Abs(r.value[i]) <= 1.0
    ensures r.Some? && rate > 0 ==>
      (|r.value| as real) <= (|samples| as real) * (StandardSampleRate as real) / (rate as real) < (|r.value| as real) + 1.0
  {
    if rate <= 0 || |samples| == 0 then None
    else
      var resampled := Resample(samples, rate, StandardSampleRate, filter);
      if |resampled| == 0 then None
      else
        ResampledLength(samples, rate, resampled, filter);
        Some(Normalize(resampled, 1.0))
  }

  /** The length bound a resampled chunk meets, also at the standard rate. */
  lemma ResampledLength(samples: Chunk, rate: int, resampled: Chunk, filter: nat -> real)
    requires rate > 0 && resampled == Resample(samples, rate, StandardSampleRate, filter)
    ensures (|resampled| as real) <= (|samples| as real) * (StandardSampleRate as real) / (rate as real) < (|resampled| as real) + 1.0
  {
    if rate == StandardSampleRate {
      assert (|samples| as real) * (StandardSampleRate as real) / (rate as real) == |samples| as real;
    }
  }

  // ---------------------------------------------------------------------------
  // Device choice
  // ---------------------------------------------------------------------------

  /** The first device whose name starts with "(Default)", if any. */
  function FirstDefault(devices: seq<Device>): (r: Option<int>)
    ensures r.Some? <==> exists i :: 0 <= i < |devices| && IsDefaultName(devices[i].name)
    ensures r.Some? ==> exists i ::
      && 0 <= i < |devices| && IsDefaultName(devices[i].name) && r.value == devices[i].id
      && (forall j :: 0 <= j < i ==> !IsDefaultName(devices[j].name))
  {
    if devices == [] then None
    else if IsDefaultName(devices[0].name) then Some(devices[0].id)
    else
      var r := FirstDefault(devices[1..]);
      assert forall i :: 1 <= i < |devices| ==> devices[i] == devices[1..][i - 1];
      if r.Some? then
        var i :| 0 <= i < |devices[1..]| && IsDefaultName(devices[1..][i].name) && r.value == devices[1..][i].id
          && (forall j :: 0 <= j < i ==> !IsDefaultName(devices[1..][j].name));
        assert devices[i + 1] == devices[1..][i];
        assert forall j :: 0 <= j < i + 1 ==> !IsDefaultName(devices[j].name) by {
          forall j | 0 <= j < i + 1 ensures !IsDefaultName(devices[j].name) {
            if j > 0 { assert devices[j] == devices[1..][j - 1]; }
          }
        }
        r
      else
        r
  }

  const DefaultPrefix: string := "(Default)"

  predicate IsDefaultName(name: string) {
    |name| >= |DefaultPrefix| && name[..|DefaultPrefix|] == DefaultPrefix
  }

  /**
   * The device a dropdown selects: the saved id when a listed device has it,
   * else the first "(Default)" device, else the first device, else none.
   */
  function ChooseDevice(saved: Option<int>, devices: seq<Device>): (r: Option<int>)
    ensures devices == [] <==> r == None
    ensures r.Some? ==> exists i :: 0 <= i < |devices| && devices[i].id == r.value
    ensures saved.Some? && (exists i :: 0 <= i < |devices| && devices[i].id == saved.value) ==> r == saved
    ensures (saved.None? || forall i :: 0 <= i < |devices| ==> devices[i].id != saved.value) ==>
      r == (if FirstDefault(devices).Some? then FirstDefault(devices) else if devices == [] then None else Some(devices[0].id))
  {
    if devices == [] then None
    else if saved.Some? && exists i :: 0 <= i < |devices| && devices[i].id == saved.value then saved
    else if FirstDefault(devices).Some? then FirstDefault(devices)
    else Some(devices[0].id)
  }

  // ---------------------------------------------------------------------------
  // The session
  // ---------------------------------------------------------------------------

  class VoiceSession {
    const audio: AudioEngine
    var previewing: Option<ChannelId>
    var currentVoice: Option<ChannelId>
    var active: bool
    var currentText: Option<ChannelId>
    var roster: map<UserId, RemoteUser>
    var timers: ActivityTimers.Timers
    /** The input-volume slider, 0..100. */
    var inputVolume: int
    /** Whether the socket is connected. */
    var connected: bool
    /** The logged-in user's id, `None` before login. */
    var me: Option<UserId>
    var emitted: seq<Emit>

    /** The mute triple: button, logical flag, slider. */
    function Mute(): MuteState
      reads this, audio
    {
      MuteState(audio.isMicMuted, audio.isLogicallyMuted, inputVolume)
    }

    /**
     * The structural part of the invariant, which every handler keeps,
     * including the as-written ones that desynchronise the mute flags or the
     * timers.
     */
    ghost predicate WellFormed()
      reads this, audio
    {
      && audio.Valid()
      && Membership(previewing, currentVoice, active)
      && (forall k :: k in roster ==> roster[k].id == k)
      && 0 <= inputVolume <= 100
      && SilentIsMuted(Mute())
    }

    /** The full invariant: also the mute flags in sync and one live timer per user. */
    ghost predicate Valid()
      reads this, audio
    {
      && WellFormed()
      && ActivityTimers.Valid(timers)
      && Consistent(Mute())
    }

    /** A session with nothing previewed, an empty roster and the slider at 100. */
    constructor (connected: bool, me: Option<UserId>)
      ensures Valid() && fresh(audio)
      ensures previewing == None && currentVoice == None && !active && currentText == None
      ensures roster == map[] && timers == ActivityTimers.Empty && inputVolume == 100 && emitted == []
      ensures this.connected == connected && this.me == me
    {
      audio := new AudioEngine();
      previewing, currentVoice, active, currentText := None, None, false, None;
      roster, timers, inputVolume := map[], ActivityTimers.Empty, 100;
      this.connected, this.me, emitted := connected, me, [];
    }

    /** The socket connects or drops. */
    method SetConnected(c: bool)
      modifies this`connected
      ensures connected == c
    {
      connected := c;
    }

    /** Stops capture, then playback (draining its queue). */
    method StopStreams(closeFails: bool)
      requires audio.Valid()
      modifies audio`captureStopRequested, audio`hasCaptureThread, audio`isSendingAudio, audio`lastSentSpeakingStatus,
        audio`outputStreamOpen, audio`isPlaybackActive, audio`playbackQueue
      ensures audio.Valid() && !audio.isSendingAudio
      ensures old(audio.isSendingAudio) ==> !audio.lastSentSpeakingStatus
      ensures old(audio.outputStreamOpen && audio.isPlaybackActive) ==>
        !audio.outputStreamOpen && audio.playbackQueue == [] && audio.isPlaybackActive == closeFails
      ensures !old(audio.outputStreamOpen && audio.isPlaybackActive) ==>
        && audio.outputStreamOpen == old(audio.outputStreamOpen) && audio.isPlaybackActive == old(audio.isPlaybackActive)
        && audio.playbackQueue == old(audio.playbackQueue)
    {
      audio.StopAudioStreamIfRunning();
      audio.StopPlaybackStreamIfRunning(closeFails);
    }

    /** Announces leaving channel `ch` when connected, then stops both streams. */
    method LeaveOnServer(ch: ChannelId, closeFails: bool)
      requires audio.Valid()
      modifies this`emitted, audio`captureStopRequested, audio`hasCaptureThread, audio`isSendingAudio,
        audio`lastSentSpeakingStatus, audio`outputStreamOpen, audio`isPlaybackActive, audio`playbackQueue
      ensures audio.Valid() && !audio.isSendingAudio
      ensures emitted == old(emitted) + (if connected then [LeaveVoiceChannel(ch)] else [])
      ensures old(audio.outputStreamOpen && audio.isPlaybackActive) ==>
        !audio.outputStreamOpen && audio.playbackQueue == [] && audio.isPlaybackActive == closeFails
      ensures !old(audio.outputStreamOpen && audio.isPlaybackActive) ==>
        && audio.outputStreamOpen == old(audio.outputStreamOpen) && audio.isPlaybackActive == old(audio.isPlaybackActive)
        && audio.playbackQueue == old(audio.playbackQueue)
    {
      if connected {
        emitted := emitted + [LeaveVoiceChannel(ch)];
      }
      StopStreams(closeFails);
    }

    /**
     * The session side of leaving: not joined, no voice channel, an empty
     * roster; a plain leave also clears the preview.
     */
    method ClearVoiceState(calledFromSelect: bool)
      modifies this`active, this`currentVoice, this`previewing, this`roster
      ensures !active && currentVoice == None && roster == map[]
      ensures previewing == (if calledFromSelect then old(previewing) else None)
    {
      active, currentVoice, roster, previewing :=
        false, None, map[], (if calledFromSelect then previewing else None);
    }

    /**
     * Leaves the joined or previewed voice channel, as written. Only a joined
     * channel is left on the server and has its streams stopped. A plain
     * leave also clears the previewed id. When it was only a preview, the
     * function then reads the text channel id, which its own later
     * assignment makes a local name that is never bound: it raises
     * (`raised`) after the voice state is cleared, and the text channel is
     * left as it was.
     */
    method LeaveCurrentVoiceChannelIfAny(calledFromSelect: bool, closeFails: bool) returns (raised: bool)
      requires Valid()
      modifies this`active, this`currentVoice, this`previewing, this`roster, this`emitted,
        audio`captureStopRequested, audio`hasCaptureThread, audio`isSendingAudio, audio`lastSentSpeakingStatus,
        audio`outputStreamOpen, audio`isPlaybackActive, audio`playbackQueue
      ensures Valid()
      ensures raised == (!calledFromSelect && !old(active))
      ensures !active && currentVoice == None && roster == map[]
      ensures previewing == (if calledFromSelect then old(previewing) else None)
      ensures emitted == old(emitted) + (if old(active) && connected then [LeaveVoiceChannel(old(currentVoice).value)] else [])
      ensures old(active) ==> !audio.isSendingAudio
      ensures old(active) && old(audio.outputStreamOpen && audio.isPlaybackActive) ==>
        !audio.outputStreamOpen && audio.playbackQueue == [] && audio.isPlaybackActive == closeFails
      ensures old(active) && !old(audio.outputStreamOpen && audio.isPlaybackActive) ==>
        && audio.outputStreamOpen == old(audio.outputStreamOpen) && audio.isPlaybackActive == old(audio.isPlaybackActive)
        && audio.playbackQueue == old(audio.playbackQueue)
      ensures !old(active) ==> unchanged(audio)
      ensures currentText == old(currentText)
      ensures Mute() == old(Mute())
      ensures timers == old(timers) && inputVolume == old(inputVolume) && connected == old(connected) && me == old(me)
    {
      var wasActive := active;
      if active {
        LeaveOnServer(currentVoice.value, closeFails);
      }
      ClearVoiceState(calledFromSelect);
      raised := !calledFromSelect && !wasActive;
    }

    /**
     * The leave with the text channel id bound to the session's own: after a
     * plain leave of a preview a text channel is selected whenever one
     * exists, the current one when it is truthy and otherwise the first.
     */
    method LeaveCurrentVoiceChannelFallingBack(calledFromSelect: bool, closeFails: bool, textChannels: seq<ChannelId>)
      requires Valid()
      modifies this`active, this`currentVoice, this`previewing, this`currentText, this`roster, this`emitted,
        audio`captureStopRequested, audio`hasCaptureThread, audio`isSendingAudio, audio`lastSentSpeakingStatus,
        audio`outputStreamOpen, audio`isPlaybackActive, audio`playbackQueue
      ensures Valid()
      ensures !active && currentVoice == None && roster == map[]
      ensures previewing == (if calledFromSelect then old(previewing) else None)
      ensures emitted == old(emitted) + (if old(active) && connected then [LeaveVoiceChannel(old(currentVoice).value)] else [])
      ensures !old(active) ==> unchanged(audio)
      ensures !calledFromSelect && !old(active) && textChannels != [] ==> currentText.Some?
      ensures currentText ==
        if !calledFromSelect && !old(active) && !TruthyId(old(currentText)) && textChannels != []
        then Some(textChannels[0]) else old(currentText)
      ensures Mute() == old(Mute())
      ensures timers == old(timers) && inputVolume == old(inputVolume) && connected == old(connected) && me == old(me)
    {
      var raised := LeaveCurrentVoiceChannelIfAny(calledFromSelect, closeFails);
      if raised && !TruthyId(currentText) && textChannels != [] {
        currentText := Some(textChannels[0]);
      }
    }

    /**
     * Selects voice channel `ch`. Re-selecting the joined channel, or the
     * previewed one while not joined, changes nothing; any other channel
     * leaves the current one and starts a fresh preview of `ch`.
     */
    method SelectVoiceChannel(ch: ChannelId, closeFails: bool)
      requires Valid()
      modifies this`active, this`currentVoice, this`previewing, this`currentText, this`roster, this`emitted,
        audio`captureStopRequested, audio`hasCaptureThread, audio`isSendingAudio, audio`lastSentSpeakingStatus,
        audio`outputStreamOpen, audio`isPlaybackActive, audio`playbackQueue
      ensures Valid()
      ensures (old(active) && old(currentVoice) == Some(ch)) || (!old(active) && old(previewing) == Some(ch)) ==>
        && previewing == old(previewing) && currentVoice == old(currentVoice) && active == old(active)
        && currentText == old(currentText) && roster == old(roster) && emitted == old(emitted) && unchanged(audio)
      ensures !((old(active) && old(currentVoice) == Some(ch)) || (!old(active) && old(previewing) == Some(ch))) ==>
        && previewing == Some(ch) && !active && currentVoice == None && currentText == None && roster == map[]
        && emitted == old(emitted) + (if old(active) && connected then [LeaveVoiceChannel(old(currentVoice).value)] else [])
        && (old(active) ==> !audio.isSendingAudio)
        && (!old(active) ==> unchanged(audio))
      ensures old(active) && old(currentVoice) != Some(ch) && old(audio.outputStreamOpen && audio.isPlaybackActive) ==>
        !audio.outputStreamOpen && audio.playbackQueue == [] && audio.isPlaybackActive == closeFails
      ensures old(active) && old(currentVoice) != Some(ch) && !old(audio.outputStreamOpen && audio.isPlaybackActive) ==>
        && audio.outputStreamOpen == old(audio.outputStreamOpen) && audio.isPlaybackActive == old(audio.isPlaybackActive)
        && audio.playbackQueue == old(audio.playbackQueue)
      ensures Mute() == old(Mute())
      ensures timers == old(timers) && inputVolume == old(inputVolume) && connected == old(connected) && me == old(me)
    {
      if active && currentVoice == Some(ch) {
        previewing := Some(ch);
        return;
      }
      if !active && previewing == Some(ch) {
        return;
      }
      PreviewOther(ch, closeFails);
    }

    /**
     * Switching to a channel that is neither joined nor previewed: the
     * current channel is left (on the server and with both streams stopped
     * when joined) and a fresh preview of `ch` starts with no text channel
     * and an empty roster.
     */
    method PreviewOther(ch: ChannelId, closeFails: bool)
      requires Valid()
      requires !((active && currentVoice == Some(ch)) || (!active && previewing == Some(ch)))
      modifies this`active, this`currentVoice, this`previewing, this`currentText, this`roster, this`emitted,
        audio`captureStopRequested, audio`hasCaptureThread, audio`isSendingAudio, audio`lastSentSpeakingStatus,
        audio`outputStreamOpen, audio`isPlaybackActive, audio`playbackQueue
      ensures Valid()
      ensures previewing == Some(ch) && !active && currentVoice == None && currentText == None && roster == map[]
      ensures emitted == old(emitted) + (if old(active) && connected then [LeaveVoiceChannel(old(currentVoice).value)] else [])
      ensures old(active) ==> !audio.isSendingAudio
      ensures old(active) && old(audio.outputStreamOpen && audio.isPlaybackActive) ==>
        !audio.outputStreamOpen && audio.playbackQueue == [] && audio.isPlaybackActive == closeFails
      ensures old(active) && !old(audio.outputStreamOpen && audio.isPlaybackActive) ==>
        && audio.outputStreamOpen == old(audio.outputStreamOpen) && audio.isPlaybackActive == old(audio.isPlaybackActive)
        && audio.playbackQueue == old(audio.playbackQueue)
      ensures !old(active) ==> unchanged(audio)
      ensures Mute() == old(Mute())
      ensures timers == old(timers) && inputVolume == old(inputVolume) && connected == old(connected) && me == old(me)
    {
      // After the leave, or in a session that was not joined, `active` is
      // already false and `currentVoice` already None; the source's
      // reassignment of both changes nothing and is folded away here.
      var joinedElsewhere := active && currentVoice.Some? && currentVoice != Some(ch);
      var previewingElsewhere := !active && previewing.Some? && previewing != Some(ch);
      if joinedElsewhere || previewingElsewhere {
        var raised := LeaveCurrentVoiceChannelIfAny(true, closeFails);
      }
      previewing, currentText, roster := Some(ch), None, map[];
    }

    /**
     * Starts capture when an input device is selected, then always starts
     * playback on the selected output device.
     */
    method StartStreams(outcome: StreamOutcome)
      requires audio.Valid()
      modifies audio`captureStopRequested, audio`hasCaptureThread, audio`isSendingAudio,
        audio`outputStreamOpen, audio`isPlaybackActive
      ensures audio.Valid()
      ensures audio.selectedInputDevice.Some? || old(audio.isSendingAudio) ==> audio.isSendingAudio
      ensures audio.selectedInputDevice.None? ==> audio.isSendingAudio == old(audio.isSendingAudio)
      ensures audio.selectedInputDevice.Some? && !old(audio.isSendingAudio) ==> !audio.captureStopRequested
      ensures PlaybackStarted(old(audio.isPlaybackActive), old(audio.outputStreamOpen), outcome,
        audio.isPlaybackActive, audio.outputStreamOpen)
    {
      if audio.selectedInputDevice.Some? {
        audio.StartAudioStream(audio.selectedInputDevice.value);
      }
      audio.StartPlaybackStream(audio.selectedOutputDevice, outcome);
    }

    /**
     * What "join" does after the mute reset: joined on the previewed channel,
     * the join announced, capture started when an input device is selected,
     * playback always started, then the microphone status announced.
     */
    method EnterPreviewed(outcome: StreamOutcome)
      requires WellFormed() && previewing.Some?
      modifies this`active, this`currentVoice, this`emitted, audio`captureStopRequested, audio`hasCaptureThread,
        audio`isSendingAudio, audio`outputStreamOpen, audio`isPlaybackActive
      ensures WellFormed()
      ensures active && currentVoice == previewing
      ensures audio.selectedInputDevice.Some? ==> audio.isSendingAudio
      ensures audio.selectedInputDevice.None? ==> audio.isSendingAudio == old(audio.isSendingAudio)
      ensures PlaybackStarted(old(audio.isPlaybackActive), old(audio.outputStreamOpen), outcome,
        audio.isPlaybackActive, audio.outputStreamOpen)
      ensures emitted == old(emitted) + (if connected then
        [JoinVoiceChannel(previewing.value), MicrophoneStatus(previewing.value, !audio.isLogicallyMuted)]
      else [])
    {
      active := true;
      currentVoice := previewing;
      StartStreams(outcome);
      emitted := emitted + (if connected then
        [JoinVoiceChannel(currentVoice.value), MicrophoneStatus(currentVoice.value, !audio.isLogicallyMuted)] else []);
    }

    /**
     * "Join" on the previewed channel, as written: the button is reset to
     * unmuted when the slider is above 0 but the logical flag is not
     * recomputed, so a user muted by the button stays logically muted,
     * capture stays gated and the initial status announces a muted
     * microphone. Only the structural invariant survives.
     */
    method ConfirmJoin(outcome: StreamOutcome)
      requires Valid()
      modifies this, audio`isMicMuted, audio`captureStopRequested, audio`hasCaptureThread,
        audio`isSendingAudio, audio`outputStreamOpen, audio`isPlaybackActive
      ensures WellFormed()
      ensures old(previewing) == None ==> unchanged(this) && unchanged(audio)
      ensures old(previewing).Some? ==>
        && active && currentVoice == old(previewing) && previewing == old(previewing)
        && Mute() == JoinResetAsWritten(old(Mute()))
        && (audio.selectedInputDevice.Some? ==> audio.isSendingAudio)
        && (audio.selectedInputDevice.None? ==> audio.isSendingAudio == old(audio.isSendingAudio))
        && PlaybackStarted(old(audio.isPlaybackActive), old(audio.outputStreamOpen), outcome,
             audio.isPlaybackActive, audio.outputStreamOpen)
        && emitted == old(emitted) + (if connected then
             [JoinVoiceChannel(previewing.value), MicrophoneStatus(previewing.value, !audio.isLogicallyMuted)]
           else [])
        && roster == old(roster) && currentText == old(currentText) && timers == old(timers)
        && connected == old(connected) && me == old(me)
      ensures old(previewing).Some? && old(audio.isMicMuted) && inputVolume > 0 ==>
        && !audio.isMicMuted && audio.isLogicallyMuted
        && (connected ==> emitted[|emitted| - 1] == MicrophoneStatus(previewing.value, false))
    {
      if previewing.None? {
        return;
      }
      var m := JoinResetAsWritten(Mute());
      audio.isMicMuted := m.micMuted;
      EnterPreviewed(outcome);
    }

    /**
     * "Join" with the logical flag recomputed after the reset: above a zero
     * slider the microphone is unmuted in both senses, and the initial status
     * announces it; the full invariant is kept.
     */
    method ConfirmJoinRecomputingMute(outcome: StreamOutcome)
      requires Valid()
      modifies this, audio`isMicMuted, audio`isLogicallyMuted, audio`captureStopRequested, audio`hasCaptureThread,
        audio`isSendingAudio, audio`outputStreamOpen, audio`isPlaybackActive
      ensures Valid()
      ensures old(previewing) == None ==> unchanged(this) && unchanged(audio)
      ensures old(previewing).Some? ==>
        && active && currentVoice == old(previewing) && previewing == old(previewing)
        && Mute() == JoinReset(old(Mute()))
        && (inputVolume > 0 ==> !audio.isMicMuted && !audio.isLogicallyMuted)
        && (audio.selectedInputDevice.Some? ==> audio.isSendingAudio)
        && (audio.selectedInputDevice.None? ==> audio.isSendingAudio == old(audio.isSendingAudio))
        && PlaybackStarted(old(audio.isPlaybackActive), old(audio.outputStreamOpen), outcome,
             audio.isPlaybackActive, audio.outputStreamOpen)
        && emitted == old(emitted) + (if connected then
             [JoinVoiceChannel(previewing.value), MicrophoneStatus(previewing.value, !audio.isLogicallyMuted)]
           else [])
        && roster == old(roster) && currentText == old(currentText) && timers == old(timers)
        && connected == old(connected) && me == old(me)
    {
      if previewing.None? {
        return;
      }
      var m := JoinReset(Mute());
      audio.isMicMuted, audio.isLogicallyMuted := m.micMuted, m.logicallyMuted;
      EnterPreviewed(outcome);
    }

    /**
     * "Leave" while joined: announces the leave, stops both streams and goes
     * back to previewing the same channel, keeping the roster.
     */
    method LeaveVoiceClick(closeFails: bool)
      requires Valid()
      modifies this`active, this`currentVoice, this`previewing, this`emitted,
        audio`captureStopRequested, audio`hasCaptureThread, audio`isSendingAudio, audio`lastSentSpeakingStatus,
        audio`outputStreamOpen, audio`isPlaybackActive, audio`playbackQueue
      ensures Valid()
      ensures !old(active) ==> unchanged(this) && unchanged(audio)
      ensures old(active) ==>
        && !active && currentVoice == None && previewing == old(currentVoice)
        && roster == old(roster) && !audio.isSendingAudio
        && emitted == old(emitted) + (if connected then [LeaveVoiceChannel(old(currentVoice).value)] else [])
      ensures old(active) && old(audio.outputStreamOpen && audio.isPlaybackActive) ==>
        !audio.outputStreamOpen && audio.playbackQueue == [] && audio.isPlaybackActive == closeFails
      ensures old(active) && !old(audio.outputStreamOpen && audio.isPlaybackActive) ==>
        && audio.outputStreamOpen == old(audio.outputStreamOpen) && audio.isPlaybackActive == old(audio.isPlaybackActive)
        && audio.playbackQueue == old(audio.playbackQueue)
      ensures Mute() == old(Mute()) && timers == old(timers) && currentText == old(currentText)
    {
      if !active || currentVoice.None? {
        return;
      }
      var ch := currentVoice.value;
      LeaveOnServer(ch, closeFails);
      active := false;
      previewing := Some(ch);
      currentVoice := None;
    }

    /**
     * A roster snapshot for `channel`: replaces the roster, every user
     * unmuted and not speaking, when the channel is the previewed one.
     */
    method OnVoiceChannelUsers(channel: Option<ChannelId>, users: seq<UserEntry>)
      requires Valid()
      modifies this`roster
      ensures Valid()
      ensures roster == if channel == previewing then RosterOf(users) else old(roster)
    {
      if channel == previewing {
        roster := map[];
        for i := 0 to |users|
          invariant roster == RosterOf(users[..i])
          invariant forall k :: k in roster ==> roster[k].id == k
        {
          assert users[..i + 1][..i] == users[..i];
          roster := roster[users[i].userId := FreshUser(users[i].userId, users[i].username)];
        }
        assert users[..|users|] == users;
      }
    }

    /** A user joined `channel`: added when previewed, named, and not yet listed. */
    method OnUserJoinedVoice(channel: Option<ChannelId>, userId: Option<UserId>, username: Option<string>)
      requires Valid()
      modifies this`roster
      ensures Valid()
      ensures roster ==
        if channel == previewing && TruthyId(userId) && username.Some? && username.value != [] && userId.value !in old(roster)
        then old(roster)[userId.value := FreshUser(userId.value, username.value)]
        else old(roster)
    {
      if channel == previewing && TruthyId(userId) && username.Some? && username.value != [] && userId.value !in roster {
        roster := roster[userId.value := FreshUser(userId.value, username.value)];
      }
    }

    /** A user left `channel`: removed when the channel is previewed; other users stay. */
    method OnUserLeftVoice(channel: Option<ChannelId>, userId: Option<UserId>)
      requires Valid()
      modifies this`roster
      ensures Valid()
      ensures roster ==
        if channel == previewing && userId.Some? && userId.value in old(roster)
        then old(roster) - {userId.value} else old(roster)
    {
      if channel == previewing && userId.Some? && userId.value in roster {
        roster := roster - {userId.value};
      }
    }

    /**
     * The older mic-status event, matched against the joined channel; a
     * missing status counts as muted.
     */
    method OnUserSpeaking(userId: Option<UserId>, speaking: Option<bool>, channel: Option<ChannelId>)
      requires Valid()
      modifies this`roster
      ensures Valid()
      ensures roster ==
        if channel == currentVoice && userId.Some? && userId.value in old(roster)
        then old(roster)[userId.value := old(roster)[userId.value].(micMuted := speaking != Some(true))]
        else old(roster)
    {
      if channel == currentVoice && userId.Some? && userId.value in roster {
        var muted := speaking != Some(true);
        if roster[userId.value].micMuted != muted {
          roster := roster[userId.value := roster[userId.value].(micMuted := muted)];
        }
      }
    }

    /**
     * A mic-status update, matched against the previewed channel; an update
     * without a status is ignored.
     */
    method OnUserMicStatusUpdated(userId: Option<UserId>, isUnmuted: Option<bool>, channel: Option<ChannelId>)
      requires Valid()
      modifies this`roster
      ensures Valid()
      ensures roster ==
        if channel == previewing && userId.Some? && userId.value in old(roster) && isUnmuted.Some?
        then old(roster)[userId.value := old(roster)[userId.value].(micMuted := !isUnmuted.value)]
        else old(roster)
    {
      if channel == previewing && userId.Some? && userId.value in roster && isUnmuted.Some? {
        var muted := !isUnmuted.value;
        if roster[userId.value].micMuted != muted {
          roster := roster[userId.value := roster[userId.value].(micMuted := muted)];
        }
      }
    }

    /** A voice-activity event: an active listed user's card turns speaking (no timer starts). */
    method OnUserVoiceActivity(userId: Option<UserId>, isActive: bool)
      requires Valid()
      modifies this`roster
      ensures Valid()
      ensures roster ==
        if TruthyId(userId) && userId.value in old(roster) && isActive
        then old(roster)[userId.value := old(roster)[userId.value].(cardSpeaking := true)]
        else old(roster)
    {
      if TruthyId(userId) && userId.value in roster && isActive {
        if !roster[userId.value].cardSpeaking {
          roster := roster[userId.value := roster[userId.value].(cardSpeaking := true)];
        }
      }
    }

    /** Whether an inbound chunk from `sender` is taken at all. */
    predicate AcceptsChunkFrom(sender: Option<UserId>)
      reads this
    {
      active && !(me.Some? && sender == me) && sender.Some? && sender.value in roster
    }

    /** Audio from listed user `u`: the card turns speaking and the user's activity timer restarts. */
    method HearFrom(u: UserId)
      requires Valid() && u in roster
      modifies this`roster, this`timers
      ensures Valid()
      ensures roster == old(roster)[u := old(roster)[u].(cardSpeaking := true)]
      ensures timers == ActivityTimers.Start(old(timers), u)
      ensures ActivityTimers.LiveFor(timers, u) == {old(timers).next}
    {
      if !roster[u].cardSpeaking {
        roster := roster[u := roster[u].(cardSpeaking := true)];
      }
      ActivityTimers.StartKeepsValid(timers, u);
      timers := ActivityTimers.Start(timers, u);
    }

    /**
     * An inbound audio chunk: ignored unless joined, from someone else, and
     * from a listed user; a non-empty chunk marks the sender speaking,
     * restarts the sender's activity timer and queues the processed audio.
     */
    method OnVoiceDataStreamChunk(sender: Option<UserId>, samples: Chunk, rate: int, filter: nat -> real)
      requires Valid()
      modifies this`roster, this`timers, audio`playbackQueue
      ensures Valid()
      ensures !(old(AcceptsChunkFrom(sender)) && |samples| > 0) ==>
        roster == old(roster) && timers == old(timers) && audio.playbackQueue == old(audio.playbackQueue)
      ensures old(AcceptsChunkFrom(sender)) && |samples| > 0 ==>
        && roster == old(roster)[sender.value := old(roster)[sender.value].(cardSpeaking := true)]
        && timers == ActivityTimers.Start(old(timers), sender.value)
        && ActivityTimers.LiveFor(timers, sender.value) == {old(timers).next}
        && audio.playbackQueue == (match InboundChunk(samples, rate, filter)
             case None => old(audio.playbackQueue)
             case Some(c) => Enqueue(old(audio.playbackQueue), c, audio.queueMaxSize))
    {
      if !active {
        return;
      }
      if me.Some? && sender == me {
        return;
      }
      if sender.None? || sender.value !in roster {
        return;
      }
      if |samples| > 0 {
        HearFrom(sender.value);
        var processed := InboundChunk(samples, rate, filter);
        if processed.Some? {
          audio.AddChunkToPlaybackBuffer(processed.value);
        }
      }
    }

    /**
     * The local capture reports a speaking change: the user's own card
     * follows it, and starting to speak restarts the user's activity timer.
     */
    method LocalSpeakingStatusChanged(isSpeaking: bool)
      requires Valid()
      modifies this`roster, this`timers
      ensures Valid()
      ensures !(active && me.Some?) ==> roster == old(roster) && timers == old(timers)
      ensures active && me.Some? ==>
        && roster == (if me.value in old(roster) then old(roster)[me.value := old(roster)[me.value].(cardSpeaking := isSpeaking)] else old(roster))
        && timers == (if isSpeaking && me.value != 0 then ActivityTimers.Start(old(timers), me.value) else old(timers))
    {
      if !active || me.None? {
        return;
      }
      var u := me.value;
      if u in roster && roster[u].cardSpeaking != isSpeaking {
        roster := roster[u := roster[u].(cardSpeaking := isSpeaking)];
      }
      if isSpeaking && u != 0 {
        ActivityTimers.StartKeepsValid(timers, u);
        timers := ActivityTimers.Start(timers, u);
      }
    }

    /** The scheduled activity timer `h` elapses and queues its handler task. */
    method TimerElapses(h: ActivityTimers.Handle)
      requires Valid() && h in timers.scheduled
      modifies this`timers
      ensures Valid()
      ensures timers == ActivityTimers.Elapse(old(timers), h)
    {
      timers := ActivityTimers.Elapse(timers, h);
    }

    /**
     * The oldest queued timeout task runs, as written: whatever timer the
     * user's entry now holds, the entry is dropped and a listed user's card
     * stops speaking. A timer started after this task's own one elapsed thus
     * stays scheduled without being recorded, so only the structural
     * invariant survives.
     */
    method RunTimeoutTask()
      requires Valid() && timers.tasks != []
      modifies this`roster, this`timers
      ensures WellFormed()
      ensures timers == ActivityTimers.RunTaskAsWritten(old(timers)).0
      ensures var u := old(timers).tasks[0].user;
        roster == if u in old(roster) then old(roster)[u := old(roster)[u].(cardSpeaking := false)] else old(roster)
    {
      var (t, u) := ActivityTimers.RunTaskAsWritten(timers);
      timers := t;
      if u in roster {
        roster := roster[u := roster[u].(cardSpeaking := false)];
      }
    }

    /**
     * The oldest queued timeout task runs, acting only when its timer is
     * still the user's current one: then the entry is dropped and a listed
     * user's card stops speaking; a task whose timer was replaced meanwhile
     * does nothing. The full invariant is kept.
     */
    method RunTimeoutTaskIfCurrent()
      requires Valid() && timers.tasks != []
      modifies this`roster, this`timers
      ensures Valid()
      ensures timers == ActivityTimers.RunTask(old(timers)).0
      ensures roster ==
        match ActivityTimers.RunTask(old(timers)).1
        case Current(u) =>
          if u in old(roster) then old(roster)[u := old(roster)[u].(cardSpeaking := false)] else old(roster)
        case Stale => old(roster)
    {
      var (t, outcome) := ActivityTimers.RunTask(timers);
      timers := t;
      if outcome.Current? && outcome.user in roster {
        roster := roster[outcome.user := roster[outcome.user].(cardSpeaking := false)];
      }
    }

    /** Announces the logical mute state, only while joined and connected. */
    method SendMuteStatus()
      requires Valid()
      modifies this`emitted
      ensures Valid()
      ensures emitted == old(emitted) +
        if active && connected then [MicrophoneStatus(currentVoice.value, !audio.isLogicallyMuted)] else []
    {
      if !active || currentVoice.None? || !connected {
        return;
      }
      emitted := emitted + [MicrophoneStatus(currentVoice.value, !audio.isLogicallyMuted)];
    }

    /** The mute button: toggles, restores the slider when unmuting at 0, announces. */
    method HandleMuteMic()
      requires Valid()
      modifies this`inputVolume, this`emitted, audio`isMicMuted, audio`isLogicallyMuted
      ensures Valid()
      ensures Mute() == ToggleMute(old(Mute()))
      ensures audio.isLogicallyMuted == audio.isMicMuted == !old(audio.isMicMuted)
      ensures emitted == old(emitted) +
        if active && connected then [MicrophoneStatus(currentVoice.value, !audio.isLogicallyMuted)] else []
    {
      var m := ToggleMute(Mute());
      audio.isMicMuted, audio.isLogicallyMuted, inputVolume := m.micMuted, m.logicallyMuted, m.volume;
      SendMuteStatus();
    }

    /** The volume slider moved to `v`: 0 forces the button muted; then announces. */
    method HandleInputVolumeChange(v: int)
      requires Valid() && 0 <= v <= 100
      modifies this`inputVolume, this`emitted, audio`isMicMuted, audio`isLogicallyMuted
      ensures Valid()
      ensures Mute() == VolumeChanged(old(Mute()), v)
      ensures audio.isLogicallyMuted == audio.isMicMuted
      ensures emitted == old(emitted) +
        if active && connected then [MicrophoneStatus(currentVoice.value, !audio.isLogicallyMuted)] else []
    {
      var m := VolumeChanged(Mute(), v);
      audio.isMicMuted, audio.isLogicallyMuted, inputVolume := m.micMuted, m.logicallyMuted, m.volume;
      SendMuteStatus();
    }

    /** Fills both device dropdowns and selects a device on each. */
    method PopulateAudioDevices(savedInput: Option<int>, savedOutput: Option<int>, inputs: seq<Device>, outputs: seq<Device>)
      requires Valid()
      modifies audio`selectedInputDevice, audio`selectedOutputDevice
      ensures Valid()
      ensures audio.selectedInputDevice == ChooseDevice(savedInput, inputs)
      ensures audio.selectedOutputDevice == ChooseDevice(savedOutput, outputs)
    {
      audio.selectedInputDevice := ChooseDevice(savedInput, inputs);
      audio.selectedOutputDevice := ChooseDevice(savedOutput, outputs);
    }
  }

  /**
   * Leaving a previewed channel while no text channel is selected and text
   * channel 7 exists: as written the leave raises and no text channel is
   * selected; the corrected leave selects channel 7.
   */
  method PreviewLeaveWitness() returns (raised: bool, asWritten: Option<ChannelId>, corrected: Option<ChannelId>)
    ensures raised && asWritten == None && corrected == Some(7)
  {
    var s := new VoiceSession(false, None);
    s.SelectVoiceChannel(5, false);
    raised := s.LeaveCurrentVoiceChannelIfAny(false, false);
    asWritten := s.currentText;
    var t := new VoiceSession(false, None);
    t.SelectVoiceChannel(5, false);
    t.LeaveCurrentVoiceChannelFallingBack(false, false, [7]);
    corrected := t.currentText;
  }
}

=== FILE: timers.dfy ===
/**
 * Per-user voice-activity timers. Evidence of activity for a user (re)starts
 * a one-second timer; the dictionary of timer handles by user is the
 * client's, the set of scheduled handles and the queue of tasks those
 * handles create when they elapse belong to the event loop. A scheduled
 * timer that elapses does not run the timeout handler itself: it creates a
 * task that runs the handler later, after whatever the loop runs first.
 */
module ActivityTimers {

  type UserId = int
  type Handle = nat

  /** A timeout-handler task created by the elapsed timer `handle` of `user`. */
  datatype Task = Task(user: UserId, handle: Handle)

  datatype Timers = Timers(
    byUser: map<UserId, Handle>,     // the client's dictionary of timer handles
    scheduled: map<Handle, UserId>,  // timers neither cancelled nor elapsed
    tasks: seq<Task>,                // handler tasks waiting to run, in order
    next: Handle)                    // the next handle the loop hands out

  const Empty: Timers := Timers(map[], map[], [], 0)

  /** The live (scheduled) timers of user `u`. */
  function LiveFor(t: Timers, u: UserId): set<Handle> {
    set h | h in t.scheduled && t.scheduled[h] == u
  }

  /** Every scheduled timer is the one its user's dictionary entry names. */
  ghost predicate OneLivePerUser(t: Timers) {
    forall h :: h in t.scheduled ==> t.scheduled[h] in t.byUser && t.byUser[t.scheduled[h]] == h
  }

  ghost predicate Valid(t: Timers) {
    && OneLivePerUser(t)
    && (forall h :: h in t.scheduled ==> h < t.next)
    && (forall u :: u in t.byUser ==> t.byUser[u] < t.next)
    && (forall i :: 0 <= i < |t.tasks| ==> t.tasks[i].handle < t.next && t.tasks[i].handle !in t.scheduled)
  }

  /** One live timer per user follows from the invariant. */
  lemma {:induction false} AtMostOneLive(t: Timers, u: UserId)
    requires OneLivePerUser(t)
    ensures LiveFor(t, u) == {} || (u in t.byUser && LiveFor(t, u) == {t.byUser[u]})
  {
    if LiveFor(t, u) != {} {
      var h :| h in LiveFor(t, u);
      assert u in t.byUser && t.byUser[u] == h;
      forall h' | h' in LiveFor(t, u) ensures h' == h {
        assert t.byUser[t.scheduled[h']] == h';
      }
    }
  }

  /**
   * Starts or resets the timer of `u`: the existing handle, if any, is
   * cancelled and a fresh one is scheduled and recorded.
   */
  function Start(t: Timers, u: UserId): (r: Timers)
    ensures u in r.byUser && r.byUser[u] == t.next && t.next in r.scheduled && r.scheduled[t.next] == u
    ensures forall v :: v != u ==> (v in r.byUser <==> v in t.byUser) && (v in t.byUser ==> r.byUser[v] == t.byUser[v])
    ensures r.tasks == t.tasks && r.next == t.next + 1
  {
    var kept := if u in t.byUser then t.scheduled - {t.byUser[u]} else t.scheduled;
    Timers(t.byUser[u := t.next], kept[t.next := u], t.tasks, t.next + 1)
  }

  /** Starting a timer keeps the invariant and leaves exactly the fresh timer live for `u`. */
  lemma {:induction false} StartKeepsValid(t: Timers, u: UserId)
    requires Valid(t)
    ensures Valid(Start(t, u))
    ensures LiveFor(Start(t, u), u) == {t.next}
  {
    var r := Start(t, u);
    forall h | h in r.scheduled
      ensures r.scheduled[h] in r.byUser && r.byUser[r.scheduled[h]] == h
    {
      if h != t.next {
        assert h in t.scheduled && t.byUser[t.scheduled[h]] == h;
        assert t.scheduled[h] != u;
      }
    }
    forall h | h in LiveFor(r, u) ensures h == t.next {
    }
  }

  /** The scheduled timer `h` elapses: it stops being live and queues its handler task. */
  function Elapse(t: Timers, h: Handle): (r: Timers)
    requires h in t.scheduled
    ensures Valid(t) ==> Valid(r)
    ensures h !in r.scheduled && r.byUser == t.byUser
    ensures r.tasks == t.tasks + [Task(t.scheduled[h], h)]
  {
    Timers(t.byUser, t.scheduled - {h}, t.tasks + [Task(t.scheduled[h], h)], t.next)
  }

  /**
   * The first queued handler task as written: it deletes its user's
   * dictionary entry whatever handle that entry holds now, and always asks
   * for the user's card to stop speaking.
   */
  function RunTaskAsWritten(t: Timers): (r: (Timers, UserId))
    requires t.tasks != []
    ensures r.1 == t.tasks[0].user && r.0.byUser == t.byUser - {r.1}
    ensures r.0.scheduled == t.scheduled && r.0.tasks == t.tasks[1..]
  {
    var u := t.tasks[0].user;
    (Timers(t.byUser - {u}, t.scheduled, t.tasks[1..], t.next), u)
  }

  /**
   * The race: activity at handle 0, the timer elapses, new activity arrives
   * before the handler task runs, then the stale task runs. The fresh timer
   * is still scheduled but no longer recorded, so the next activity leaves
   * two live timers for the same user, and the card was cleared although the
   * newest activity is less than a timeout old.
   */
  lemma StaleTaskLeavesTwoLiveTimers()
    ensures var t1 := Start(Empty, 7);
      var t2 := Elapse(t1, 0);
      var t3 := Start(t2, 7);
      var (t4, cleared) := RunTaskAsWritten(t3);
      var t5 := Start(t4, 7);
      && cleared == 7 && 1 in t4.scheduled
      && !OneLivePerUser(t4)
      && LiveFor(t5, 7) == {1, 2}
  {
    var t1 := Start(Empty, 7);
    var t2 := Elapse(t1, 0);
    var t3 := Start(t2, 7);
    assert t3.scheduled == map[1 := 7];
    var (t4, cleared) := RunTaskAsWritten(t3);
    var t5 := Start(t4, 7);
    assert t5.scheduled == map[1 := 7, 2 := 7];
    assert LiveFor(t5, 7) == {1, 2};
  }

  /**
   * The first queued handler task, acting only when its handle is still its
   * user's current one: then it drops the entry and the card stops speaking
   * (`Current(user)`); a stale task does nothing (`Stale`).
   */
  function RunTask(t: Timers): (r: (Timers, TaskOutcome))
    requires t.tasks != []
    ensures Valid(t) ==> Valid(r.0)
    ensures r.0.scheduled == t.scheduled && r.0.tasks == t.tasks[1..]
    ensures var k := t.tasks[0];
      if k.user in t.byUser && t.byUser[k.user] == k.handle
      then r.1 == Current(k.user) && r.0.byUser == t.byUser - {k.user}
      else r.1 == Stale && r.0.byUser == t.byUser
  {
    var k := t.tasks[0];
    if k.user in t.byUser && t.byUser[k.user] == k.handle then
      (Timers(t.byUser - {k.user}, t.scheduled, t.tasks[1..], t.next), Current(k.user))
    else
      (Timers(t.byUser, t.scheduled, t.tasks[1..], t.next), Stale)
  }

  /** Whether a handler task was current (and for whom) or stale. */
  datatype TaskOutcome = Stale | Current(user: UserId)

  /**
   * With the handle check, activity that arrives between a timer elapsing and
   * its task running keeps the user speaking and keeps the fresh timer.
   */
  lemma {:induction false} StaleTaskIgnored(u: UserId)
    ensures var t3 := Start(Elapse(Start(Empty, u), 0), u);
      var (t4, outcome) := RunTask(t3);
      && outcome == Stale && t4.byUser == map[u := 1] && LiveFor(t4, u) == {1}
  {
    var t1 := Start(Empty, u);
    var t2 := Elapse(t1, 0);
    var t3 := Start(t2, u);
    assert t3.tasks == [Task(u, 0)] && t3.byUser == map[u := 1];
    assert t3.scheduled == map[1 := u];
  }
}

=== FILE: wrappers.dfy ===
/** Optional values: Python's `None` versus a present value. */
module Wrappers {

  datatype Option<+T> = None | Some(value: T)
}
